=== FILE: README.md ===
# Credit ledger, purchases and conversations of image_card_bot

This project models in Dafny the core of a Telegram bot that writes product
descriptions ("cards") and edits photos for credits bought with Telegram Stars.
It also models the small HTTP service the bot calls. The model covers:

- **Ledger.** The credit ledger is a map from Telegram id to an immutable user
  row, with get, get-or-create, has-credits, use-credits and add-credits.
- **Payment.** The purchase protocol covers:
  - the `buy:credits:<amount>:<price>` button data;
  - the `buy:credits:<amount>` invoice payload;
  - what a successful payment does: credit the buyer, then a one-hop referral
    bonus of `int(amount * 0.20)`.
- **Conversations.** There are two state machines over the per-user
  conversation state:
  - `CardFlow`: photo, then name, brand and category, then audience, then
    selling points, then a generation gated on one credit and debited before
    the call;
  - `PhotoFlow`: photo, then a prompt of 5 to 1500 characters.
- **Service.** The service side covers:
  - the API-key check;
  - the `ERROR` status of a card;
  - the ordered classification of photo errors;
  - the port fallback;
  - the image client's base64 helpers and data URI;
  - the request `parts`;
  - the extraction of the first inline image from a Gemini response.
- **Dispatch.** Each update is routed to the first handler whose filters
  match, trying the routers in the order they are included. The database
  middleware is an inner middleware, so its get-or-create runs only once a
  handler has matched, just before that handler. An update no handler takes
  changes nothing. Commands are recognised as aiogram's `Command` filter does:
  on the text or the caption, by the first whitespace-separated word.
  `Dispatch.Run` feeds one user's updates through this in sequence, which is
  how whole conversations are stated.

External calls become parameters: the card service's, the photo service's and
Gemini's answers. Python's `str.split`, `strip`, `lower`, `in`, `int()`,
`f"{n}"` and base64 are written out in `Strings`, `PyInt` and `Base64`.

Where the code and the design notes of the repository disagree, the model
follows the code:
- `use_credits` has no `amount > 0` guard, so `Ledger.UseCredits` accepts any
  amount the balance covers.
- `add_referral_earnings` is called but its body is not part of this model. It
  is modelled as a plain counter increment on a known user.
- No new-user referral bonus or referral-code issuance exists in the code, so
  none is modelled. The referrer link is an optional field that nothing in the
  model sets.
- The referral bonus is `int(amount * 0.20)`, which truncates toward zero. It
  is not a floor. The two differ only for negative amounts.

## Model

| member | source | states |
|---|---|---|
| Ledger.GetUser | bot/database/crud.py:9-13 | A row is returned exactly when the id is in the table, it is the row stored under that id, and when ids are unique its `telegram_id` is the key. |
| Ledger.GetOrCreateUser | bot/database/crud.py:15-44 | The id is in the table afterwards and no other row changes. The display fields take the incoming values. An existing row keeps its balance, used count, referrer and earnings. A new row starts at 125 remaining and 0 used, with no referrer. Unique ids stay unique. |
| Ledger.GetOrCreateIdempotent | bot/database/crud.py:35-44 | A second get-or-create with the same profile changes nothing and returns the same row, so there is no second creation and no double starting balance. |
| Ledger.UseCredits | bot/database/crud.py:53-61 | Succeeds iff the user exists and the balance covers the amount. On failure nothing changes. On success remaining drops and used rises by the amount, and no other field or user changes. |
| Ledger.HasCredits | bot/database/crud.py:46-61 | `has_credits` holds exactly when `use_credits` would debit. It is false for an unknown id. |
| Ledger.UseCreditsConserves | bot/database/crud.py:56-58 | A debit preserves remaining + used. |
| Ledger.ExactBalanceSpentOnce | bot/database/crud.py:56-60 | With a positive cost equal to the balance, the first debit succeeds and `has_credits` is false afterwards. |
| Ledger.AddCredits | bot/database/crud.py:63-70 | Succeeds iff the user exists and the amount is positive. On failure nothing changes. On success only that user's remaining rises, by exactly the amount. |
| Ledger.AddReferralEarnings | bot/handlers/payment.py:154 | Bumps only the earnings counter of a known user. An unknown id changes nothing. |
| Ledger.ApplyKeepsInv | bot/database/crud.py:15-70 | Every ledger operation with a non-negative amount keeps ids unique and all balances and used counts non-negative. |
| Ledger.ApplyAllKeepsInv | bot/database/crud.py:15-70 | Any sequence of such operations keeps that invariant, by induction on the sequence. |
| Ledger.BalancesNeverNegative | bot/database/models.py:33-34 | From an empty table, no sequence of operations with non-negative amounts makes a balance negative. |
| Payment.HandleBuyCallback | bot/handlers/payment.py:73-94 | An invoice is sent iff the data has exactly four `:` fields, type `credits`, and integer amount and price. The amount and price are the parsed ones and the payload is `buy:credits:<amount>`. Any other type is rejected before an invoice. |
| Payment.RoutedCallbackHasCreditsType | bot/handlers/payment.py:73-90 | Behind the `buy:credits:` router filter, the unknown-type rejection can never fire. |
| Payment.PackageCallbackAccepted | bot/handlers/payment.py:79-94 | Callback data written for any amount and price is accepted and invoices that same amount and price. |
| Payment.MenuCallbacksAccepted | bot/handlers/payment.py:27-31 | Each of the five menu buttons leads to an invoice for its own package. |
| Payment.ParseSuccessPayload | bot/handlers/payment.py:132-138 | A payload parses iff it has exactly three `:` fields and an integer last field. The kind is the middle field and the amount is `int()` of the last field. |
| Payment.InvoicePayloadRoundTrip | bot/handlers/payment.py:133-134 | The payload put on an invoice parses back at payment time to a `credits` purchase of the same amount. |
| Payment.InvoiceThenPayment | bot/handlers/payment.py:79-134 | Whatever invoice the callback handler sends, its payload parses back to a `credits` purchase of the invoiced amount. |
| Payment.ReferralBonus | bot/handlers/payment.py:150 | For a non-negative amount the bonus is the floor of a fifth. It is positive exactly when the amount is at least 5, and never positive for a negative amount. |
| Payment.ReferralStep | bot/handlers/payment.py:147-154 | The bonus is awarded iff the referrer id is set and non-zero, the referrer exists and the bonus is positive. It raises both the referrer's balance and earnings by the bonus. Otherwise nothing changes, and no third party changes either way. |
| Payment.SuccessPayment | bot/handlers/payment.py:121-172 | A malformed payload or an unknown type changes nothing and awards nothing. A `credits` payload is always answered as credited, with the amount the payload carries; a zero or negative amount adds nothing to the balance (see `Payment.PaymentEffects`). No row other than the buyer's and the awarded referrer's changes. |
| Payment.PaymentEffects | bot/handlers/payment.py:140-154 | Paying an invoice of `amount` credits the buyer exactly `amount` (when positive). The referrer gets `amount / 5` in balance and earnings iff it exists and `amount >= 5`; otherwise the referrer is untouched. |
| Payment.SuccessPaymentKeepsInv | bot/handlers/payment.py:140-154 | A payment, valid or not, keeps ids unique and balances non-negative. |
| PyInt.Parse | bot/handlers/payment.py:133-134 | `int()` accepts exactly a stripped text that is a numeral, or a sign followed by a numeral. A negative result comes only from a leading `-`. |
| PyInt.Show | bot/handlers/payment.py:94 | `f"{n}"` is non-empty and made of digits, with a `-` only in front. |
| PyInt.ParseShow | bot/handlers/payment.py:133-134 | `int()` of `f"{n}"` is `n` for every integer, negative ones included. |
| Strings.Split | bot/handlers/payment.py:79 | `split(sep)` always gives at least one field, more than one exactly when the separator occurs, and no field contains the separator. |
| Strings.Strip | bot/handlers/card_generation.py:127 | `strip()` returns a slice of the string with only whitespace outside it, and no whitespace at either end of the slice. |
| Strings.StripIsTheTrimmedSlice | bot/handlers/card_generation.py:127 | That description is complete: any slice with only whitespace outside it and none at its ends is exactly what `strip()` returns. |
| Strings.Lower | bot/handlers/card_generation.py:352 | `lower()` keeps the length, maps each ASCII capital to its lower-case letter, and keeps every other character in place. |
| Strings.RemoveAll | bot/handlers/card_generation.py:351 | `replace(pat, "")` never lengthens the text, returns it unchanged when `pat` does not occur, and removes at least one whole `pat` when it does. |
| Strings.RemoveAllLeftmost | bot/handlers/card_generation.py:351 | The scan is left to right and non-overlapping: for `pre + pat + post` where `pat` starts nowhere inside `pre`, the result is `pre` followed by the result for `post`. With the unchanged-when-absent clause this determines the result for every text. |
| Strings.FirstWordIsFirstWord | bot/handlers/commands.py:11 | For a word without whitespace, "the text after leading whitespace starts with the word and then ends or has whitespace" is the same as "the word is the first field of `split(maxsplit=1)`". |
| Strings.SplitJoin | bot/handlers/payment.py:79 | Splitting fields joined by a separator none of them contains gives back exactly those fields. |
| Strings.ContainsIffOccurs | gpt_integration/service.py:139 | Python's `in` on strings holds exactly when the substring occurs at some position. |
| CardFlow.Start | bot/handlers/card_generation.py:39-56 | Start waits for a photo with photo, characteristics, audience and selling points reset. The sub-step is not reset, as in the code. |
| CardFlow.OnPhoto | bot/handlers/card_generation.py:76-115 | A photo stores its file id, resets the characteristics, sets the sub-step to name and waits for characteristics. Anything else leaves the session unchanged. |
| CardFlow.OnCharacteristics | bot/handlers/card_generation.py:122-197 | Non-text input changes nothing. A text is stored, stripped, under the current sub-step (name when unset) and advances it from name to brand to category. Only the category step moves on, to the audience question. Nothing else in the data changes. |
| CardFlow.OnAudience | bot/handlers/card_generation.py:203-238 | Non-text input changes nothing. A text is stored unstripped as the audience and moves on to the selling points. Nothing else in the data changes. |
| CardFlow.OnSellingPoints | bot/handlers/card_generation.py:251-275 | Non-text input is refused with session and ledger unchanged and no call. A text clears the session and the service is called iff the balance covers the cost and the data is complete. With a call exactly the one-credit debit is applied, and without one the ledger is unchanged. |
| CardFlow.ReplyFor | bot/handlers/card_generation.py:346-410 | A 200 answer whose card does not start with `ERROR:` is shown as the card, unchanged. One that starts with it is a region or a generation error. The message is the text with every `ERROR:` removed, then stripped. It is a region error exactly when the lower-cased message contains "not available in your region" or "unsupported_country"; otherwise the generation error carries that message. Any other status means the service is unavailable. A network error and an unexpected exception each have their own reply. |
| CardFlow.CharacteristicsInOrder | bot/handlers/card_generation.py:122-163 | Three texts fill name, brand and category in that order, each stripped. Only the third moves to the audience step, and the photo id is kept. |
| CardFlow.CharacteristicsIgnoreNonText | bot/handlers/card_generation.py:176-197 | Non-text input while characteristics are awaited changes nothing. |
| CardFlow.Generate | bot/handlers/card_generation.py:282-410 | Every path clears the session. The service is called iff the fetched balance is at least 1 and photo, name, brand and category are all non-empty. Without a call the ledger is unchanged, with an insufficient-credits reply when the balance is short. With a call the one-credit debit is applied. |
| CardFlow.NoRefund | bot/handlers/card_generation.py:337-410 | The ledger after generation does not depend on how the call ended. On the gated path the balance is exactly one lower. |
| CardFlow.HandleMessage | bot/handlers/card_generation.py:76-275 | Each card state goes to its own handler: the photo, characteristics and audience handlers for the session, and the selling-points handler for the whole result. Only the selling-points step can call the service or change the ledger, and a ledger change comes only with a call and a cleared session. |
| CardFlow.HandleMessageConsistent | bot/handlers/card_generation.py:76-275 | Every card handler leaves the data consistent with the state it moves to. |
| CardFlow.HandleMessageKeepsInv | bot/handlers/card_generation.py:287-339 | The card handlers keep ids unique and balances non-negative. |
| CardFlow.MissingDataOnlyFromBlanks | bot/handlers/card_generation.py:305-312 | From a consistent session, the missing-data check fails only when a stored value is an empty (stripped) string. |
| PhotoFlow.Start | bot/handlers/photo_processing.py:36-46 | Start waits for a photo with photo id and prompt reset to none. |
| PhotoFlow.OnPhoto | bot/handlers/photo_processing.py:66-101 | A photo stores its file id and waits for the prompt. Anything else leaves the session unchanged. |
| PhotoFlow.OnPrompt | bot/handlers/photo_processing.py:108-151 | Non-text input is refused unchanged. A text prompt is refused with the session unchanged when its stripped length is under 5 (too short) or over 1500 (too long). Otherwise the session ends cleared, and the service is called iff a photo id is stored. |
| PhotoFlow.Process | bot/handlers/photo_processing.py:157-274 | Every path clears the session. The service is called iff photo id and prompt are both non-empty, and otherwise the reply is missing data. |
| PhotoFlow.HandleMessage | bot/handlers/photo_processing.py:66-151 | The photo handlers keep the session consistent and never call the service while waiting for the photo. |
| PhotoFlow.DataUriPayload | bot/handlers/photo_processing.py:209 | The extracted payload never contains a comma, and a URL without a comma is used whole. |
| PhotoFlow.ReplyFor | bot/handlers/photo_processing.py:199-274 | Each reply is tied to its exact condition. A non-200 status means the service is down. A non-`success` status shows the message or the default text. An empty URL gives no result. A non-data URL is passed on as a link. A `data:image` URL is delivered exactly when its payload decodes, as the decoded bytes, and an undecodable payload is an internal failure. |
| PhotoFlow.DataUriPayloadRoundTrip | bot/handlers/photo_processing.py:209 | The bot's extraction from a URI built by the image client returns the original base64 text when neither part contains a comma. |
| PhotoFlow.ImageDeliveredIntact | bot/handlers/photo_processing.py:205-210 | An image the client encodes into a `data:image...` URI is delivered by the bot as exactly the same bytes. |
| Base64.Encode | gpt_integration/photo_processing/image_client.py:63-65 | The output has length 4·⌈n/3⌉ and uses only the base64 alphabet and `=`. |
| Base64.Decode | gpt_integration/photo_processing/image_client.py:68-70 | Decoding succeeds only on text whose length is a multiple of 4, and yields three bytes per four characters, less at most two for padding. |
| Base64.DecodeEncode | gpt_integration/photo_processing/image_client.py:63-70 | Decoding the encoding of any byte string gives it back (section 4 of RFC 4648). |
| Base64.EncodeHasNoComma | gpt_integration/photo_processing/image_client.py:75 | Encoded text never contains a comma, so it survives the comma-separated data URI. |
| ImageClient.ToDataUri | gpt_integration/photo_processing/image_client.py:73-75 | The URI starts with `data:` and the MIME type, has the fixed overhead in length, and ends with the base64 text. |
| ImageClient.DataUriFields | gpt_integration/photo_processing/image_client.py:73-75 | Split on `,`, a URI whose parts contain no comma gives exactly the header and the base64 text. |
| ImageClient.DecodeEncodeImage | gpt_integration/photo_processing/image_client.py:63-70 | The image client's encode and decode helpers are inverse. |
| ImageClient.BuildParts | gpt_integration/photo_processing/image_client.py:118-125 | The prompt text comes first, then one inline image per download, in input order. Each image has its own MIME type and data that decodes to its bytes. |
| ImageClient.ExtractImage | gpt_integration/photo_processing/image_client.py:152-180 | No candidates is an error, and only the first candidate is read. The first part with a non-empty `inlineData` (preferred) or `inline_data` decides. Its MIME type is `mimeType`, else `mime_type`, else `image/png`. Missing image data is an error. |
| ImageClient.ExtractionUnique | gpt_integration/photo_processing/image_client.py:152-180 | That description of the parsing determines the outcome: two outcomes that both meet it are equal. |
| ImageClient.ProcessImagesResponse | gpt_integration/photo_processing/image_client.py:143-186 | An HTTP status of 400 or more fails the call. Below 400 the outcome is exactly the parsing of the body described for `ExtractImage`. A success is always a `data:` URI. |
| GptService.ApiKeyAccepted | gpt_integration/service.py:125-127 | A key is accepted exactly when it equals the configured key and that key is non-empty. |
| GptService.CardEndpoint | gpt_integration/service.py:117-157 | For a request body that passes validation, a bad key gives 403 before any other check of the handler. The status is `error` iff the card contains `ERROR`, else `success`, and the card text is returned unchanged. Other exceptions give 500 with the message, and an HTTP exception passes through. |
| GptService.CardStatusByOccurrence | gpt_integration/service.py:139-148 | The card status is `error` exactly when `ERROR` occurs at some position of the card text. |
| GptService.ClassifyPhotoError | gpt_integration/service.py:198-221 | Each kind carries its fixed message. A processing error carries the prefix followed by the full original message. |
| GptService.ClassifyByOccurrence | gpt_integration/service.py:204-215 | `timeout` anywhere in the lower-cased message decides first. Otherwise `api` or `network` anywhere gives `api_error`. |
| GptService.ClassifyIgnoresCase | gpt_integration/service.py:204-210 | The error kind does not depend on letter case. |
| GptService.PhotoEndpoint | gpt_integration/service.py:164-221 | For a request body that passes validation, a bad key gives 403, and 403 only then. A `ValueError` gives 400 with its text. A result is passed through as success. Any other exception gives a 200 error body. |
| GptService.Port | gpt_integration/service.py:229-234 | An unset or empty `GPT_PORT`, or one that is not an integer, gives 9001. Otherwise the port is the parsed integer. |
| GptService.DefaultPortText | gpt_integration/service.py:229 | The default text `"9001"` is the decimal form of the fallback port. |
| GptService.PortShow | gpt_integration/service.py:229-234 | Any integer written in decimal is the port used. |
| Dispatch.Route | bot/__main__.py:54-57 | A conversation handler takes only messages in its own states. Outside a conversation a payment message always reaches the payment handler. A text or caption whose first word is `/start` goes to the start command, and only such a message does. An unhandled message is outside every conversation, is no payment and is neither command. |
| Dispatch.CommandsExclusive | bot/handlers/commands.py:11 | No message is both `/start` and `/buy_credits`. |
| Dispatch.Step | bot/__main__.py:43-44 | An update no handler takes leaves the ledger as it was, since the inner database middleware never runs for it. Otherwise only the card handlers and the payment handler change the ledger beyond the middleware's get-or-create, so the photo flow never touches credits. Only the conversation handlers change the session. |
| Dispatch.StepAsWritten | bot/__main__.py:54-57 | As wired, a payment message during a card or photo conversation never reaches the payment handler. |
| Dispatch.PaymentIgnoredInConversation | bot/handlers/card_generation.py:104-115 | As wired, a payment message during a conversation is taken by that conversation's handler and credits nobody. |
| Dispatch.PaymentLostInCardConversation | bot/__main__.py:54-57 | Concrete case: a new user who pays for 100 credits while the bot waits for the product photo keeps a balance of 125. |
| Dispatch.Dispatch | bot/handlers/payment.py:121-122 | With the payment router ahead of the conversation routers, every payment message and `/buy_credits` reach the payment handlers. |
| Dispatch.PaymentAlwaysCredited | bot/handlers/payment.py:121-142 | With that order, paying an invoice credits the buyer exactly its amount in every conversation state, and the conversation stays where it was. |
| Dispatch.OrderOnlyMattersInConversations | bot/__main__.py:54-57 | Outside card and photo conversations, and for every button press, both router orders behave identically. |
| Dispatch.DispatchKeepsConsistent | bot/handlers/card_generation.py:39-428 | Every update keeps the sender's session consistent with its state. |
| Dispatch.DispatchKeepsInv | bot/database/crud.py:53-70 | Every update keeps ids unique and balances non-negative. |
| Dispatch.CancelClears | bot/handlers/card_generation.py:420-428 | Either cancel button, the card flow's or the photo flow's, clears state and data whatever conversation was under way, leaves the fetched ledger alone and sends no invoice. |
| Dispatch.CardOpened | bot/handlers/card_generation.py:39-102 | The start button and then a photo leave the conversation asking for the name with the photo stored, and the ledger as the middleware fetched it. |
| Dispatch.NameAndBrandCollected | bot/handlers/card_generation.py:122-163 | Two plain texts while the name is asked for are stored as name and brand by the characteristics handler, with the ledger left as fetched. |
| Dispatch.CharacteristicsCollected | bot/handlers/card_generation.py:122-163 | Three plain texts while the name is asked for pass, in order, through the characteristics handler, with the ledger left as fetched. |
| Dispatch.CardDetailsCollected | bot/handlers/card_generation.py:39-163 | After the start button, the photo and three texts, the bot waits for the audience with the photo and the three stripped characteristics stored, and only the middleware has touched the ledger. |
| Dispatch.CardFinished | bot/handlers/card_generation.py:203-339 | From the audience question, an audience and selling points with complete data and a sufficient balance end the conversation and apply exactly the one-credit debit. |
| Dispatch.CardConversationCostsOne | bot/handlers/card_generation.py:39-339 | A whole card conversation from the start button through the selling points ends cleared and moves exactly one credit from remaining to used. |

## Left out

- Network I/O is a parameter of the model: the aiohttp and httpx calls, the Telegram API (`send_invoice`, `answer_photo`, message texts, keyboards), file URLs and image downloads. An outcome is a success, an application error, a non-200 status or a network failure.
- Async execution, `asyncio.gather` (only its order preservation is kept), tenacity retries and backoff, timeouts, and the processing-time measurements are left out.
- The SQLAlchemy session and commits are not modelled. Each crud call is one atomic map update.
- The logging, error-handler and rate-limit middlewares are not modelled. A rate-limited update is not modelled as dropped.
- The pre-checkout handler (always `ok=True`) is left out, because it touches no state.
- The purchase-menu display is left out, because it only shows the balance.
- PIL's MIME detection for input images is left out. A download carries its MIME type.
- Floating point is left out. The referral bonus is computed as `amount / 5` on integers. For the non-negative amounts the menu and the payloads produce, `int(amount * 0.20)` equals `amount / 5`.
- Python's non-ASCII digits in `int()` and Unicode case mapping in `lower()` are left out.
- Dispatch.Route: a command word such as `/start@botname` is not recognised. aiogram's `Command` filter would strip the mention and compare it with the bot's username, which needs the Telegram API. The `ignore_case`, `prefix` and `magic` options are also left out, since the bot uses only the defaults.
- GptService.CardEndpoint: FastAPI validates the request body against `CardGenerationRequest` (gpt_integration/service.py:88-94) before the handler runs and answers 422 to an invalid body whatever the key. That validation is not modelled, and the endpoint model assumes a valid body.
- GptService.PhotoEndpoint: likewise, validation against `PhotoProcessingRequest` (gpt_integration/service.py:97-101) comes first and is not modelled.
- Base64.Decode: strict RFC 4648 decoding. Python's `b64decode` also discards characters outside the alphabet and accepts some non-canonical padding, which is left out.
- `gpt_integration/photo_processing/service.py` is not part of this model. It calls a `process_image` method the client does not define. The bot's request sends `photo_file_id` while `PhotoProcessingRequest` requires `photo_file_ids` (gpt_integration/service.py:97-101 against bot/handlers/photo_processing.py:184-188). The photo service's answer to the bot is therefore kept as an arbitrary outcome, not derived from the endpoint model.
- Referral-code issuance, a starting bonus for referred users, and referral counts do not appear in the code and are not modelled.
- Conversation state is modelled for the sender alone. aiogram keeps one context per chat and user, and updates of different users do not interact except through the ledger.
- CardFlow.Generate: the card request body (characteristics, audience, selling points) is not modelled, only whether the call happens and how it ended.

## Findings

| source | as written | input that shows it | evidently intended | confidence | as-written member | corrected member |
|---|---|---|---|---|---|---|
| bot/__main__.py:54-57 | The card and photo routers are included before the payment router. Each of their states has a catch-all message handler, so during a conversation a `successful_payment` message goes to that catch-all, and `add_credits` never runs. | A user at the card flow's "send a photo" step pays an invoice for 100 credits. The balance stays at 125 and the user is told to send a photo. | A completed payment credits the buyer whatever conversation is under way. | not executed | Dispatch.PaymentLostInCardConversation | Dispatch.PaymentAlwaysCredited |

=== FILE: base64.dfy ===
/** Base64 with padding as in section 4 of RFC 4648 (Python's
    `base64.b64encode` / `base64.b64decode` on canonical input). */
module Base64 {
  import opened Common

  type Byte = x: int | 0 <= x < 256
  type Sextet = x: int | 0 <= x < 64

  /** The position of a character in the alphabet, if it is in it. */
  function IndexOf(c: char): (r: Option<Sextet>)
  {
    if 'A' <= c <= 'Z' then Some(c as int - 'A' as int)
    else if 'a' <= c <= 'z' then Some(c as int - 'a' as int + 26)
    else if '0' <= c <= '9' then Some(c as int - '0' as int + 52)
    else if c == '+' then Some(62)
    else if c == '/' then Some(63)
    else None
  }

  /** The 64-character alphabet of section 4 of RFC 4648. */
  function CharOf(v: Sextet): (c: char)
    ensures c != '=' && c != ','
    ensures IndexOf(c) == Some(v)
  {
    if v < 26 then ('A' as int + v) as char
    else if v < 52 then ('a' as int + (v - 26)) as char
    else if v < 62 then ('0' as int + (v - 52)) as char
    else if v == 62 then '+'
    else '/'
  }

  predicate InAlphabet(c: char) {
    IndexOf(c).Some?
  }

  /** Three bytes as four characters, most significant bits first. */
  function EncodeTriple(a: Byte, b: Byte, c: Byte): string {
    [CharOf(a / 4), CharOf((a % 4) * 16 + b / 16), CharOf((b % 16) * 4 + c / 64), CharOf(c % 64)]
  }

  function Encode(bs: seq<Byte>): (r: string)
    ensures |r| == 4 * ((|bs| + 2) / 3)
    ensures forall i :: 0 <= i < |r| ==> InAlphabet(r[i]) || r[i] == '='
    decreases |bs|
  {
    if |bs| == 0 then ""
    else if |bs| == 1 then
      [CharOf(bs[0] / 4), CharOf((bs[0] % 4) * 16), '=', '=']
    else if |bs| == 2 then
      [CharOf(bs[0] / 4), CharOf((bs[0] % 4) * 16 + bs[1] / 16), CharOf((bs[1] % 16) * 4), '=']
    else
      EncodeTriple(bs[0], bs[1], bs[2]) + Encode(bs[3..])
  }

  function First(v0: int, v1: int): Byte
    requires 0 <= v0 < 64 && 0 <= v1 < 64
  {
    v0 * 4 + v1 / 16
  }

  function Second(v1: int, v2: int): Byte
    requires 0 <= v1 < 64 && 0 <= v2 < 64
  {
    (v1 % 16) * 16 + v2 / 4
  }

  function Third(v2: int, v3: int): Byte
    requires 0 <= v2 < 64 && 0 <= v3 < 64
  {
    (v2 % 4) * 64 + v3
  }

  function DecodeQuad(c0: char, c1: char, c2: char, c3: char): (r: Option<seq<Byte>>)
    ensures r.Some? ==> |r.value| == 3
  {
    match (IndexOf(c0), IndexOf(c1), IndexOf(c2), IndexOf(c3))
    case (Some(v0), Some(v1), Some(v2), Some(v3)) =>
      Some([First(v0, v1), Second(v1, v2), Third(v2, v3)])
    case _ => None
  }

  /** The final quad, which may end in one or two `=`. */
  function DecodeFinal(c0: char, c1: char, c2: char, c3: char): (r: Option<seq<Byte>>)
    ensures r.Some? ==> 1 <= |r.value| <= 3
  {
    if c2 == '=' && c3 == '=' then
      match (IndexOf(c0), IndexOf(c1))
      case (Some(v0), Some(v1)) => Some([First(v0, v1)])
      case _ => None
    else if c3 == '=' then
      match (IndexOf(c0), IndexOf(c1), IndexOf(c2))
      case (Some(v0), Some(v1), Some(v2)) => Some([First(v0, v1), Second(v1, v2)])
      case _ => None
    else DecodeQuad(c0, c1, c2, c3)
  }

  /** Decoding of a padded base64 text; `None` where the text is not made
      of whole quads over the alphabet with padding only at the end. */
  function Decode(s: string): (r: Option<seq<Byte>>)
    ensures r.Some? ==> |s| % 4 == 0 && 3 * (|s| / 4) - 2 <= |r.value| <= 3 * (|s| / 4)
    decreases |s|
  {
    if |s| == 0 then Some([])
    else if |s| < 4 then None
    else if |s| == 4 then DecodeFinal(s[0], s[1], s[2], s[3])
    else
      match DecodeQuad(s[0], s[1], s[2], s[3])
      case None => None
      case Some(block) =>
        match Decode(s[4..])
        case None => None
        case Some(rest) => Some(block + rest)
  }

  /** The four sextets of three bytes give the bytes back. */
  lemma TripleSextets(a: Byte, b: Byte, c: Byte)
    ensures var v1 := (a % 4) * 16 + b / 16;
      var v2 := (b % 16) * 4 + c / 64;
      && 0 <= v1 < 64 && 0 <= v2 < 64
      && First(a / 4, v1) == a && Second(v1, v2) == b && Third(v2, c % 64) == c
  {
    var v1 := (a % 4) * 16 + b / 16;
    var v2 := (b % 16) * 4 + c / 64;
    assert v1 / 16 == a % 4 && v1 % 16 == b / 16;
    assert v2 / 4 == b % 16 && v2 % 4 == c / 64;
  }

  lemma TripleRoundTrip(a: Byte, b: Byte, c: Byte)
    ensures var q := EncodeTriple(a, b, c);
      && |q| == 4
      && DecodeQuad(q[0], q[1], q[2], q[3]) == Some([a, b, c])
      && DecodeFinal(q[0], q[1], q[2], q[3]) == Some([a, b, c])
  {
    TripleSextets(a, b, c);
  }

  lemma PairRoundTrip(a: Byte, b: Byte)
    ensures DecodeFinal(CharOf(a / 4), CharOf((a % 4) * 16 + b / 16), CharOf((b % 16) * 4), '=')
         == Some([a, b])
  {
    TripleSextets(a, b, 0);
  }

  lemma SingleRoundTrip(a: Byte)
    ensures DecodeFinal(CharOf(a / 4), CharOf((a % 4) * 16), '=', '=') == Some([a])
  {
    assert ((a % 4) * 16) / 16 == a % 4;
  }

  lemma DecodeLastQuad(s: string)
    requires |s| == 4
    ensures Decode(s) == DecodeFinal(s[0], s[1], s[2], s[3])
  {
  }

  lemma DecodeConcat(q: string, rest: string, block: seq<Byte>, tail: seq<Byte>)
    requires |q| == 4 && |rest| > 0
    requires DecodeQuad(q[0], q[1], q[2], q[3]) == Some(block)
    requires Decode(rest) == Some(tail)
    ensures Decode(q + rest) == Some(block + tail)
  {
    var s := q + rest;
    assert s[4..] == rest;
    assert s[0] == q[0] && s[1] == q[1] && s[2] == q[2] && s[3] == q[3];
  }

  lemma EncodeOne(a: Byte)
    ensures Decode(Encode([a])) == Some([a])
  {
    var s := Encode([a]);
    assert s == [CharOf(a / 4), CharOf((a % 4) * 16), '=', '='];
    DecodeLastQuad(s);
    SingleRoundTrip(a);
  }

  lemma EncodeTwo(a: Byte, b: Byte)
    ensures Decode(Encode([a, b])) == Some([a, b])
  {
    var s := Encode([a, b]);
    assert s == [CharOf(a / 4), CharOf((a % 4) * 16 + b / 16), CharOf((b % 16) * 4), '='];
    DecodeLastQuad(s);
    PairRoundTrip(a, b);
  }

  lemma EncodeExactTriple(bs: seq<Byte>)
    requires |bs| == 3
    ensures Decode(Encode(bs)) == Some(bs)
  {
    var q := EncodeTriple(bs[0], bs[1], bs[2]);
    assert Encode(bs) == q + Encode(bs[3..]) == q;
    TripleRoundTrip(bs[0], bs[1], bs[2]);
    DecodeLastQuad(q);
    assert [bs[0], bs[1], bs[2]] == bs;
  }

  lemma SplitAfterThree(bs: seq<Byte>)
    requires |bs| >= 3
    ensures [bs[0], bs[1], bs[2]] + bs[3..] == bs
  {
  }

  lemma EncodeLong(bs: seq<Byte>)
    requires |bs| > 3
    requires Decode(Encode(bs[3..])) == Some(bs[3..])
    ensures Decode(Encode(bs)) == Some(bs)
  {
    var q := EncodeTriple(bs[0], bs[1], bs[2]);
    var rest := Encode(bs[3..]);
    assert Encode(bs) == q + rest;
    TripleRoundTrip(bs[0], bs[1], bs[2]);
    DecodeConcat(q, rest, [bs[0], bs[1], bs[2]], bs[3..]);
    SplitAfterThree(bs);
  }

  /** Decoding an encoding gives the original bytes back. */
  lemma {:induction false} DecodeEncode(bs: seq<Byte>)
    ensures Decode(Encode(bs)) == Some(bs)
    decreases |bs|
  {
    if |bs| == 0 {
    } else if |bs| == 1 {
      EncodeOne(bs[0]);
      assert bs == [bs[0]];
    } else if |bs| == 2 {
      EncodeTwo(bs[0], bs[1]);
      assert bs == [bs[0], bs[1]];
    } else if |bs| == 3 {
      EncodeExactTriple(bs);
    } else {
      DecodeEncode(bs[3..]);
      EncodeLong(bs);
    }
  }

  /** Encoded text never contains a comma, so it survives being embedded
      in a comma-separated data URI. */
  lemma EncodeHasNoComma(bs: seq<Byte>)
    ensures ',' !in Encode(bs)
  {
  }
}

=== FILE: card_flow.dfy ===
/** The product-card conversation (`bot/handlers/card_generation.py`):
    photo, then name, brand and category, then audience, then selling
    points, then a credit-gated call to the card service. */
module CardFlow {
  import opened Common
  import opened Strings
  import opened Fsm
  import opened Ledger

  /** `CARD_GENERATION_COST`. */
  const CardGenerationCost: int := 1

  /** How the HTTP call to `/v1/card/generate` ended, as the bot sees it. */
  datatype CardCall =
    | Responded(status: int, card: Option<string>)
    | NetworkError
    | UnexpectedError

  datatype CardReply =
    | Prompted
    | InputRejected
    | InsufficientCredits(needed: int, have: int)
    | MissingData
    | CardReady(text: string)
    | RegionUnavailable
    | GenerationFailed(message: string)
    | ServiceUnavailable
    | ConnectionFailed
    | InternalFailure
    | Cancelled

  /** Session after the step, ledger after the step, what the user is told,
      and whether the card service was called. */
  datatype CardResult = CardResult(session: Session, ledger: Ledger, reply: CardReply, called: bool)

  /** `callback_start_card_generation`: forget what the card flow collected
      and wait for a photo. Keys the flow does not reset are kept. */
  function Start(s: Session): (r: Session)
    ensures r.state == Some(CardWaitingForPhoto)
    ensures r.data.photoFileId == None && r.data.characteristics == NoCharacteristics
    ensures r.data.targetAudience == None && r.data.sellingPoints == None
    ensures r.data.characteristicsStep == s.data.characteristicsStep && r.data.prompt == s.data.prompt
  {
    Session(Some(CardWaitingForPhoto),
            s.data.(photoFileId := None, characteristics := NoCharacteristics,
                    targetAudience := None, sellingPoints := None))
  }

  /** `process_card_photo` / `process_card_photo_error`. */
  function OnPhoto(s: Session, c: Content): (r: Session)
    requires s.state == Some(CardWaitingForPhoto)
    ensures c.Photo? ==>
      && r.state == Some(CardWaitingForCharacteristics)
      && r.data == s.data.(photoFileId := Some(c.fileId), characteristics := NoCharacteristics,
                           characteristicsStep := Some(Name))
    ensures !c.Photo? ==> r == s
  {
    match c
    case Photo(fileId, _) =>
      Session(Some(CardWaitingForCharacteristics),
              s.data.(photoFileId := Some(fileId), characteristics := NoCharacteristics,
                      characteristicsStep := Some(Name)))
    case _ => s
  }

  /** `process_characteristics` / `process_characteristics_error`: store the
      stripped text under the current step and advance; only the category
      step leaves the state. */
  function OnCharacteristics(s: Session, c: Content): (r: Session)
    requires s.state == Some(CardWaitingForCharacteristics)
    ensures !c.Text? ==> r == s
    ensures r.state != s.state <==> c.Text? && s.data.characteristicsStep.GetOr(Name) == Category
    ensures r.state != s.state ==> r.state == Some(CardWaitingForAudience)
    ensures c.Text? ==>
      var step := s.data.characteristicsStep.GetOr(Name);
      var ch := s.data.characteristics;
      var v := Some(Strip(c.text));
      && r.data.characteristics == (match step
                                    case Name => ch.(name := v)
                                    case Brand => ch.(brand := v)
                                    case Category => ch.(category := v))
      && r.data.characteristicsStep == (match step
                                        case Name => Some(Brand)
                                        case Brand => Some(Category)
                                        case Category => s.data.characteristicsStep)
    ensures r.data.(characteristics := s.data.characteristics, characteristicsStep := s.data.characteristicsStep)
         == s.data
  {
    match c
    case Text(t) =>
      var text := Strip(t);
      var ch := s.data.characteristics;
      (match s.data.characteristicsStep.GetOr(Name)
       case Name =>
         s.(data := s.data.(characteristics := ch.(name := Some(text)), characteristicsStep := Some(Brand)))
       case Brand =>
         s.(data := s.data.(characteristics := ch.(brand := Some(text)), characteristicsStep := Some(Category)))
       case Category =>
         Session(Some(CardWaitingForAudience), s.data.(characteristics := ch.(category := Some(text)))))
    case _ => s
  }

  /** `process_target_audience` / `process_target_audience_error`. */
  function OnAudience(s: Session, c: Content): (r: Session)
    requires s.state == Some(CardWaitingForAudience)
    ensures !c.Text? ==> r == s
    ensures c.Text? ==> r.state == Some(CardWaitingForSellingPoints) && r.data.targetAudience == Some(c.text)
    ensures r.data.(targetAudience := s.data.targetAudience) == s.data
  {
    match c
    case Text(t) => Session(Some(CardWaitingForSellingPoints), s.data.(targetAudience := Some(t)))
    case _ => s
  }

  /** The data check in `generate_card_with_gpt`: a photo id and a name,
      brand and category, each present and non-empty. */
  predicate Complete(d: Data) {
    Truthy(d.photoFileId) && Truthy(d.characteristics.name) && Truthy(d.characteristics.brand)
    && Truthy(d.characteristics.category)
  }

  /** The region check on a failed generation: the lower-cased message
      mentions a region restriction. */
  predicate RegionBlocked(message: string) {
    var low := Lower(message);
    Contains(low, "not available in your region") || Contains(low, "unsupported_country")
  }

  /** The text shown for a failed generation: the service's reply with every
      `ERROR:` marker removed, stripped. */
  function ErrorMessage(text: string): string {
    Strip(RemoveAll(text, "ERROR:"))
  }

  /** What the user is told once the card service has been called. */
  function ReplyFor(call: CardCall): (r: CardReply)
    ensures r.CardReady? <==>
      call.Responded? && call.status == 200 && !StartsWith(call.card.GetOr(""), "ERROR:")
    ensures r.CardReady? ==> r.text == call.card.GetOr("")
    ensures r.RegionUnavailable? || r.GenerationFailed? <==>
      call.Responded? && call.status == 200 && StartsWith(call.card.GetOr(""), "ERROR:")
    ensures r.RegionUnavailable? <==>
      call.Responded? && call.status == 200 && StartsWith(call.card.GetOr(""), "ERROR:")
      && RegionBlocked(ErrorMessage(call.card.GetOr("")))
    ensures r.GenerationFailed? ==>
      call.Responded? && r.message == ErrorMessage(call.card.GetOr("")) && !RegionBlocked(r.message)
    ensures r == ServiceUnavailable <==> call.Responded? && call.status != 200
    ensures r == ConnectionFailed <==> call == NetworkError
    ensures r == InternalFailure <==> call == UnexpectedError
  {
    match call
    case Responded(status, card) =>
      if status == 200 then
        var text := card.GetOr("");
        if StartsWith(text, "ERROR:") then
          var message := ErrorMessage(text);
          if RegionBlocked(message) then RegionUnavailable
          else GenerationFailed(message)
        else CardReady(text)
      else ServiceUnavailable
    case NetworkError => ConnectionFailed
    case UnexpectedError => InternalFailure
  }

  /** `generate_card_with_gpt` for the user row `dbUser` the middleware
      fetched: balance check, data check, then the debit, then the call.
      Every path clears the conversation. */
  function Generate(s: Session, l: Ledger, dbUser: User, call: CardCall): (r: CardResult)
    ensures r.session == Cleared
    ensures r.called <==> dbUser.creditsRemaining >= CardGenerationCost && Complete(s.data)
    ensures !r.called ==> r.ledger == l
    ensures dbUser.creditsRemaining < CardGenerationCost ==>
      r.reply == InsufficientCredits(CardGenerationCost, dbUser.creditsRemaining)
    ensures r.called ==> r.ledger == UseCredits(l, dbUser.telegramId, CardGenerationCost).ledger
    ensures r.called ==> r.reply == ReplyFor(call)
  {
    if dbUser.creditsRemaining < CardGenerationCost then
      CardResult(Cleared, l, InsufficientCredits(CardGenerationCost, dbUser.creditsRemaining), false)
    else if !Complete(s.data) then
      CardResult(Cleared, l, MissingData, false)
    else
      var l' := UseCredits(l, dbUser.telegramId, CardGenerationCost).ledger;
      CardResult(Cleared, l', ReplyFor(call), true)
  }

  /** `process_selling_points` / `process_selling_points_error`. */
  function OnSellingPoints(s: Session, c: Content, l: Ledger, dbUser: User, call: CardCall): (r: CardResult)
    requires s.state == Some(CardWaitingForSellingPoints)
    ensures !c.Text? ==> r == CardResult(s, l, InputRejected, false)
    ensures c.Text? ==> r.session == Cleared
    ensures r.called <==> c.Text? && dbUser.creditsRemaining >= CardGenerationCost && Complete(s.data)
    ensures r.called ==> r.ledger == UseCredits(l, dbUser.telegramId, CardGenerationCost).ledger
    ensures !r.called ==> r.ledger == l
  {
    match c
    case Text(t) => Generate(s.(data := s.data.(sellingPoints := Some(t))), l, dbUser, call)
    case _ => CardResult(s, l, InputRejected, false)
  }

  /** A message in one of the card states, routed to that state's handlers. */
  function HandleMessage(s: Session, c: Content, l: Ledger, dbUser: User, call: CardCall): (r: CardResult)
    requires s.state.Some? && IsCardState(s.state.value)
    ensures r.ledger != l ==> r.called && r.session == Cleared
    ensures s.state != Some(CardWaitingForSellingPoints) ==> !r.called && r.ledger == l
    ensures s.state == Some(CardWaitingForPhoto) ==> r.session == OnPhoto(s, c)
    ensures s.state == Some(CardWaitingForCharacteristics) ==> r.session == OnCharacteristics(s, c)
    ensures s.state == Some(CardWaitingForAudience) ==> r.session == OnAudience(s, c)
    ensures s.state == Some(CardWaitingForSellingPoints) ==> r == OnSellingPoints(s, c, l, dbUser, call)
  {
    match s.state.value
    case CardWaitingForPhoto =>
      var s' := OnPhoto(s, c);
      CardResult(s', l, if c.Photo? then Prompted else InputRejected, false)
    case CardWaitingForCharacteristics =>
      CardResult(OnCharacteristics(s, c), l, if c.Text? then Prompted else InputRejected, false)
    case CardWaitingForAudience =>
      CardResult(OnAudience(s, c), l, if c.Text? then Prompted else InputRejected, false)
    case CardWaitingForSellingPoints =>
      OnSellingPoints(s, c, l, dbUser, call)
  }

  /** Three texts after the photo fill name, brand and category in that
      order, each stripped; only the third moves on to the audience. */
  lemma CharacteristicsInOrder(s: Session, fileId: string, n: string, b: string, cat: string)
    requires s.state == Some(CardWaitingForPhoto)
    ensures var s1 := OnPhoto(s, Photo(fileId, None));
      var s2 := OnCharacteristics(s1, Text(n));
      && s2.state == Some(CardWaitingForCharacteristics)
      && s2.data.characteristics == Characteristics(Some(Strip(n)), None, None)
      && var s3 := OnCharacteristics(s2, Text(b));
      && s3.state == Some(CardWaitingForCharacteristics)
      && s3.data.characteristics == Characteristics(Some(Strip(n)), Some(Strip(b)), None)
      && var s4 := OnCharacteristics(s3, Text(cat));
      && s4.state == Some(CardWaitingForAudience)
      && s4.data.characteristics == Characteristics(Some(Strip(n)), Some(Strip(b)), Some(Strip(cat)))
      && s4.data.photoFileId == Some(fileId)
  {
  }

  /** Non-text input while characteristics are awaited changes nothing. */
  lemma CharacteristicsIgnoreNonText(s: Session, c: Content)
    requires s.state == Some(CardWaitingForCharacteristics) && !c.Text?
    ensures OnCharacteristics(s, c) == s
  {
  }

  /** The debit happens before the call and is never refunded: the ledger
      after generation does not depend on how the call ended, and on the
      gated path the user's balance is exactly one credit lower. */
  lemma NoRefund(s: Session, l: Ledger, dbUser: User, call1: CardCall, call2: CardCall)
    requires dbUser.telegramId in l && l[dbUser.telegramId] == dbUser
    ensures Generate(s, l, dbUser, call1).ledger == Generate(s, l, dbUser, call2).ledger
    ensures Generate(s, l, dbUser, call1).called ==>
      Generate(s, l, dbUser, call1).ledger[dbUser.telegramId].creditsRemaining
        == dbUser.creditsRemaining - CardGenerationCost
  {
  }

  lemma OnCharacteristicsConsistent(s: Session, c: Content)
    requires s.state == Some(CardWaitingForCharacteristics) && Consistent(s)
    ensures Consistent(OnCharacteristics(s, c))
  {
    if c.Text? {
      var text := Strip(c.text);
      var ch := s.data.characteristics;
      match s.data.characteristicsStep.GetOr(Name)
      case Name =>
        assert OnCharacteristics(s, c).data.characteristics == ch.(name := Some(text));
      case Brand =>
        assert OnCharacteristics(s, c).data.characteristics == ch.(brand := Some(text));
      case Category =>
        assert OnCharacteristics(s, c).state == Some(CardWaitingForAudience);
    }
  }

  /** Every card handler keeps the session consistent with its state. */
  lemma HandleMessageConsistent(s: Session, c: Content, l: Ledger, dbUser: User, call: CardCall)
    requires s.state.Some? && IsCardState(s.state.value) && Consistent(s)
    ensures Consistent(HandleMessage(s, c, l, dbUser, call).session)
  {
    if s.state == Some(CardWaitingForCharacteristics) {
      OnCharacteristicsConsistent(s, c);
    }
  }

  /** From a consistent session, the data check can only fail because a
      stored value is the empty string (a blank text, stripped). */
  lemma MissingDataOnlyFromBlanks(s: Session)
    requires s.state == Some(CardWaitingForSellingPoints) && Consistent(s)
    requires s.data.photoFileId != Some("")
    requires s.data.characteristics.name != Some("") && s.data.characteristics.brand != Some("")
    requires s.data.characteristics.category != Some("")
    ensures Complete(s.data)
  {
  }

  /** The only ledger change a card handler makes is the one debit, so ids
      stay unique and no balance goes negative. */
  lemma HandleMessageKeepsInv(s: Session, c: Content, l: Ledger, dbUser: User, call: CardCall)
    requires s.state.Some? && IsCardState(s.state.value) && Inv(l)
    ensures Inv(HandleMessage(s, c, l, dbUser, call).ledger)
  {
    ApplyKeepsInv(l, Use(dbUser.telegramId, CardGenerationCost));
  }
}

=== FILE: common.dfy ===
/** Small shared vocabulary: optional values and Python's truthiness of an
    optional string (`None` and `""` are both false in a Python `if`). */
module Common {

  datatype Option<+T> = None | Some(value: T) {

    /** The value if present, otherwise `default` (Python's `d.get(k, default)`). */
    function GetOr(default: T): T {
      match this
      case Some(v) => v
      case None => default
    }
  }

  /** `bool(x)` for an optional string: present and non-empty. */
  predicate Truthy(x: Option<string>) {
    x.Some? && x.value != ""
  }

  /** Python's `a or b` on optional strings. */
  function OrElse(a: Option<string>, b: Option<string>): Option<string> {
    if Truthy(a) then a else b
  }
}

=== FILE: dispatch.dfy ===
/** How one update reaches a handler (`bot/__main__.py`): the routers are
    tried in the order they were included and the first handler whose
    filters match takes the update; the database middleware, registered as
    an inner middleware, then fetches or creates the sender's row and hands
    it to that handler. An update no handler takes never reaches the
    middleware. The conversation state is that of the sender. */
module Dispatch {
  import opened Common
  import opened Strings
  import opened Fsm
  import opened Ledger
  import Payment
  import CardFlow
  import PhotoFlow

  /** An incoming message, or a press of an inline button with its data. */
  datatype Update =
    | MessageUpdate(from: Profile, content: Content)
    | CallbackUpdate(from: Profile, data: string)

  /** How the external calls an update may trigger would end. */
  datatype World = World(card: CardFlow.CardCall, photo: PhotoFlow.PhotoCall)

  /** The handler that takes an update. */
  datatype Handler =
    | StartCommand
    | CardStart | CardCancel | CardStep
    | PhotoStart | PhotoCancel | PhotoStep
    | BuyCommand | ShowBuyMenu | BuyCallback | PaymentSuccess
    | Unhandled

  /** The text aiogram's `Command` filter reads: `message.text or
      message.caption`. */
  function CommandText(c: Content): Option<string> {
    match c
    case Text(t) => Some(t)
    case Photo(_, caption) => caption
    case OtherContent(caption) => caption
    case PaymentDone(_) => None
  }

  /** aiogram's `Command(name)` with its default options: the text is
      non-empty and its first whitespace-separated word is exactly `/name`. */
  predicate IsCommand(c: Content, name: string) {
    var t := CommandText(c);
    Truthy(t) && FirstWordIs(t.value, "/" + name)
  }

  /** No text is both commands. */
  lemma CommandsExclusive(c: Content)
    ensures !(IsCommand(c, "start") && IsCommand(c, "buy_credits"))
  {
    var t := CommandText(c);
    if Truthy(t) {
      FirstWordsDiffer(t.value, "/start", "/buy_credits", 1);
    }
  }

  /** Neither of the two commands the bot declares. */
  predicate NotCommand(c: Content) {
    !IsCommand(c, "start") && !IsCommand(c, "buy_credits")
  }

  predicate InCardState(s: Session) {
    s.state.Some? && IsCardState(s.state.value)
  }

  predicate InPhotoState(s: Session) {
    s.state == Some(PhotoWaitingForPhoto) || s.state == Some(PhotoWaitingForPrompt)
  }

  /** The message handlers of the payment router, in declaration order. */
  function PaymentRouter(c: Content): Option<Handler> {
    if IsCommand(c, "buy_credits") then Some(BuyCommand)
    else if c.PaymentDone? then Some(PaymentSuccess)
    else None
  }

  /** The card and photo routers: in each of their states a handler for the
      expected input and a catch-all for everything else, so they take any
      message at all while their conversation is under way. */
  function StateRouters(s: Session): Option<Handler> {
    if InCardState(s) then Some(CardStep)
    else if InPhotoState(s) then Some(PhotoStep)
    else None
  }

  /** Router order for messages. With `paymentFirst` false it is the order of
      `bot/__main__.py` (commands, card, photo, payment); with it true the
      payment router is tried right after the commands router. Callback
      filters are disjoint, so their order does not matter. */
  function Route(s: Session, u: Update, paymentFirst: bool): (h: Handler)
    ensures h == CardStep ==> u.MessageUpdate? && InCardState(s)
    ensures h == PhotoStep ==> u.MessageUpdate? && InPhotoState(s)
    ensures h == PaymentSuccess ==> u.MessageUpdate? && u.content.PaymentDone?
    ensures h == BuyCallback ==> u.CallbackUpdate? && StartsWith(u.data, "buy:credits:")
    ensures u.MessageUpdate? && !InCardState(s) && !InPhotoState(s) && u.content.PaymentDone? ==>
      h == PaymentSuccess
    ensures u.MessageUpdate? && IsCommand(u.content, "start") <==> h == StartCommand
    ensures h == Unhandled && u.MessageUpdate? ==>
      !InCardState(s) && !InPhotoState(s) && !u.content.PaymentDone? && NotCommand(u.content)
  {
    match u
    case MessageUpdate(_, c) =>
      if IsCommand(c, "start") then StartCommand
      else
        var first := if paymentFirst then OrElseHandler(PaymentRouter(c), StateRouters(s))
                     else OrElseHandler(StateRouters(s), PaymentRouter(c));
        first.GetOr(Unhandled)
    case CallbackUpdate(_, data) =>
      if data == "start_card_generation" then CardStart
      else if data == "cancel_card_generation" then CardCancel
      else if data == "start_photo_processing" then PhotoStart
      else if data == "cancel_photo_processing" then PhotoCancel
      else if data == "show_buy_menu" then ShowBuyMenu
      else if StartsWith(data, "buy:credits:") then BuyCallback
      else Unhandled
  }

  function OrElseHandler(a: Option<Handler>, b: Option<Handler>): Option<Handler> {
    if a.Some? then a else b
  }

  /** The state after one update: the ledger, the sender's session, which
      handler ran, and the invoice a purchase button asked for. */
  datatype StepResult = StepResult(ledger: Ledger, session: Session, handler: Handler,
                                   invoice: Option<Payment.InvoiceDecision>)

  /** One update: the routed handler, run after the middleware's
      `get_or_create_user` and given the row it fetched as `db_user`; an
      update no handler takes leaves everything as it was. */
  function Step(l: Ledger, s: Session, u: Update, w: World, paymentFirst: bool): (r: StepResult)
    ensures r.handler == Route(s, u, paymentFirst)
    ensures var f := GetOrCreateUser(l, u.from);
      r.handler !in {CardStep, PaymentSuccess, Unhandled} ==> r.ledger == f.ledger
    ensures r.handler == Unhandled ==> r.ledger == l
    ensures r.handler !in {CardStart, CardCancel, CardStep, PhotoStart, PhotoCancel, PhotoStep} ==>
      r.session == s
    ensures r.invoice.Some? <==> r.handler == BuyCallback
  {
    var f := GetOrCreateUser(l, u.from);
    var h := Route(s, u, paymentFirst);
    match h
    case CardStart => StepResult(f.ledger, CardFlow.Start(s), h, None)
    case CardCancel => StepResult(f.ledger, Cleared, h, None)
    case CardStep =>
      var r := CardFlow.HandleMessage(s, u.content, f.ledger, f.user, w.card);
      StepResult(r.ledger, r.session, h, None)
    case PhotoStart => StepResult(f.ledger, PhotoFlow.Start(s), h, None)
    case PhotoCancel => StepResult(f.ledger, Cleared, h, None)
    case PhotoStep =>
      StepResult(f.ledger, PhotoFlow.HandleMessage(s, u.content, w.photo).session, h, None)
    case BuyCallback => StepResult(f.ledger, s, h, Some(Payment.HandleBuyCallback(u.data)))
    case PaymentSuccess =>
      StepResult(Payment.SuccessPayment(f.ledger, f.user, u.content.payload).ledger, s, h, None)
    case Unhandled => StepResult(l, s, h, None)
    case _ => StepResult(f.ledger, s, h, None)
  }

  /** The bot as the repository wires it. */
  function StepAsWritten(l: Ledger, s: Session, u: Update, w: World): (r: StepResult)
    ensures u.MessageUpdate? && u.content.PaymentDone? && (InCardState(s) || InPhotoState(s)) ==>
      r.handler != PaymentSuccess
  {
    Step(l, s, u, w, false)
  }

  /** The bot with the payment router ahead of the conversation routers,
      so that a payment is credited whatever conversation is under way. */
  function Dispatch(l: Ledger, s: Session, u: Update, w: World): (r: StepResult)
    ensures u.MessageUpdate? && u.content.PaymentDone? ==> r.handler == PaymentSuccess
    ensures u.MessageUpdate? && IsCommand(u.content, "buy_credits") ==> r.handler == BuyCommand
  {
    if u.MessageUpdate? then CommandsExclusive(u.content); Step(l, s, u, w, true)
    else Step(l, s, u, w, true)
  }

  /** Where the order does not matter: outside a card or photo conversation,
      and for every button press, both wirings do the same thing. */
  lemma OrderOnlyMattersInConversations(l: Ledger, s: Session, u: Update, w: World)
    requires u.CallbackUpdate? || (!InCardState(s) && !InPhotoState(s))
    ensures Dispatch(l, s, u, w) == StepAsWritten(l, s, u, w)
  {
    assert Route(s, u, true) == Route(s, u, false);
  }

  /** As wired, a payment message that arrives while a card or photo
      conversation is under way is taken by that conversation's catch-all
      handler: nobody is credited, whatever the payload. */
  lemma PaymentIgnoredInConversation(l: Ledger, s: Session, p: Profile, payload: string, w: World)
    requires InCardState(s) || InPhotoState(s)
    ensures var r := StepAsWritten(l, s, MessageUpdate(p, PaymentDone(payload)), w);
      && (r.handler == CardStep || r.handler == PhotoStep)
      && r.ledger == GetOrCreateUser(l, p).ledger
  {
    var u := MessageUpdate(p, PaymentDone(payload));
    var f := GetOrCreateUser(l, p);
    if InCardState(s) {
      var c := CardFlow.HandleMessage(s, u.content, f.ledger, f.user, w.card);
      assert c.ledger == f.ledger;
    }
  }

  const Buyer: Profile := Profile(7, None, None, None)

  /** The concrete case: a new user pays for 100 credits while the bot waits
      for the product photo, and the balance stays at the starting 125. */
  lemma PaymentLostInCardConversation(w: World)
    ensures var s := Session(Some(CardWaitingForPhoto), EmptyData);
      var r := StepAsWritten(map[], s, MessageUpdate(Buyer, PaymentDone(Payment.InvoicePayload(100))), w);
      && r.handler == CardStep
      && r.ledger[Buyer.id].creditsRemaining == DefaultCredits
  {
    var s := Session(Some(CardWaitingForPhoto), EmptyData);
    PaymentIgnoredInConversation(map[], s, Buyer, Payment.InvoicePayload(100), w);
  }

  /** With the payment router first, paying an invoice credits the buyer
      exactly its amount in every conversation state, and leaves the
      conversation where it was. */
  lemma PaymentAlwaysCredited(l: Ledger, s: Session, p: Profile, amount: int, w: World)
    requires Keyed(l)
    requires p.id in l ==> Payment.ReferrerOf(l[p.id]) != Some(p.id)
    ensures var f := GetOrCreateUser(l, p);
      var r := Dispatch(l, s, MessageUpdate(p, PaymentDone(Payment.InvoicePayload(amount))), w);
      && r.handler == PaymentSuccess
      && r.session == s
      && r.ledger[p.id].creditsRemaining == f.user.creditsRemaining + (if amount > 0 then amount else 0)
  {
    var f := GetOrCreateUser(l, p);
    Payment.PaymentEffects(f.ledger, f.user, amount);
  }

  /** Every update keeps the sender's session consistent with its state. */
  lemma DispatchKeepsConsistent(l: Ledger, s: Session, u: Update, w: World)
    requires Consistent(s)
    ensures Consistent(Dispatch(l, s, u, w).session)
  {
    var f := GetOrCreateUser(l, u.from);
    if Route(s, u, true) == CardStep {
      CardFlow.HandleMessageConsistent(s, u.content, f.ledger, f.user, w.card);
    }
  }

  /** Every update keeps ids unique and balances non-negative. */
  lemma DispatchKeepsInv(l: Ledger, s: Session, u: Update, w: World)
    requires Inv(l)
    ensures Inv(Dispatch(l, s, u, w).ledger)
  {
    var f := GetOrCreateUser(l, u.from);
    ApplyKeepsInv(l, Fetch(u.from));
    match Route(s, u, true)
    case CardStep => CardFlow.HandleMessageKeepsInv(s, u.content, f.ledger, f.user, w.card);
    case PaymentSuccess => Payment.SuccessPaymentKeepsInv(f.ledger, f.user, u.content.payload);
    case _ =>
  }

  /** A text the routers hand to the conversation rather than to a command. */
  predicate PlainText(t: string) {
    NotCommand(Text(t))
  }

  /** Either cancel button clears the sender's state and data, whatever
      conversation was under way, and leaves the fetched ledger alone. */
  lemma CancelClears(l: Ledger, s: Session, p: Profile, data: string, w: World)
    requires data == "cancel_card_generation" || data == "cancel_photo_processing"
    ensures var r := Dispatch(l, s, CallbackUpdate(p, data), w);
      && r.session.state == None && r.session.data == EmptyData
      && r.ledger == GetOrCreateUser(l, p).ledger
      && r.invoice == None
  {
  }

  /** A plain message in a card conversation goes to that conversation's
      handlers, with the row the middleware fetched. */
  lemma CardMessageStep(l: Ledger, s: Session, p: Profile, c: Content, w: World)
    requires InCardState(s) && !c.PaymentDone? && NotCommand(c)
    ensures var f := GetOrCreateUser(l, p);
      var h := CardFlow.HandleMessage(s, c, f.ledger, f.user, w.card);
      Dispatch(l, s, MessageUpdate(p, c), w) == StepResult(h.ledger, h.session, CardStep, None)
  {
  }

  /** A run is its first update, then the rest. */
  lemma RunCons(l: Ledger, s: Session, u: Update, rest: seq<Update>, w: World)
    ensures var r := Dispatch(l, s, u, w);
      Run(l, s, [u] + rest, w) == Run(r.ledger, r.session, rest, w)
  {
    assert ([u] + rest)[0] == u;
    assert ([u] + rest)[1..] == rest;
  }

  /** The same, for the first of a run of updates. */
  lemma CardMessageRun(l: Ledger, s: Session, p: Profile, c: Content, rest: seq<Update>, w: World)
    requires InCardState(s) && !c.PaymentDone? && NotCommand(c)
    ensures var f := GetOrCreateUser(l, p);
      var h := CardFlow.HandleMessage(s, c, f.ledger, f.user, w.card);
      Run(l, s, [MessageUpdate(p, c)] + rest, w) == Run(h.ledger, h.session, rest, w)
  {
    CardMessageStep(l, s, p, c, w);
    RunCons(l, s, MessageUpdate(p, c), rest, w);
  }

  /** The start button opens a card conversation whatever state came before. */
  lemma CardStartStep(l: Ledger, s: Session, p: Profile, w: World)
    ensures Dispatch(l, s, CallbackUpdate(p, "start_card_generation"), w)
         == StepResult(GetOrCreateUser(l, p).ledger, CardFlow.Start(s), CardStart, None)
  {
  }

  /** Selling points sent with a complete conversation and a sufficient
      balance end it and debit the sender once. */
  lemma GenerationStep(l: Ledger, s: Session, p: Profile, t: string, w: World)
    requires Keyed(l) && p.id in l && l[p.id].creditsRemaining >= CardFlow.CardGenerationCost
    requires s.state == Some(CardWaitingForSellingPoints) && CardFlow.Complete(s.data) && PlainText(t)
    ensures var r := Dispatch(l, s, MessageUpdate(p, Text(t)), w);
      && r.session == Cleared
      && r.ledger == UseCredits(GetOrCreateUser(l, p).ledger, p.id, CardFlow.CardGenerationCost).ledger
  {
    var f := GetOrCreateUser(l, p);
    CardMessageStep(l, s, p, Text(t), w);
    var g := CardFlow.Generate(s.(data := s.data.(sellingPoints := Some(t))), f.ledger, f.user, w.card);
    assert g.called;
  }

  /** The ledger and one user's session after a run of updates. */
  datatype Snapshot = Snapshot(ledger: Ledger, session: Session)

  /** Updates from one user, dispatched in order. */
  function Run(l: Ledger, s: Session, us: seq<Update>, w: World): Snapshot
    decreases |us|, 1
  {
    if |us| == 0 then Snapshot(l, s) else RunFirst(l, s, us, w)
  }

  /** The first update of a non-empty run, then the rest. Kept apart from
      `Run` so that one unfolding of either goes one update deep. */
  function RunFirst(l: Ledger, s: Session, us: seq<Update>, w: World): Snapshot
    requires |us| > 0
    decreases |us|, 0
  {
    var r := Dispatch(l, s, us[0], w);
    Run(r.ledger, r.session, us[1..], w)
  }

  /** Running two batches one after the other is running them joined. */
  lemma {:induction false} RunAppend(l: Ledger, s: Session, a: seq<Update>, b: seq<Update>, w: World)
    ensures Run(l, s, a + b, w) == var r := Run(l, s, a, w); Run(r.ledger, r.session, b, w)
    decreases |a|
  {
    if |a| == 0 {
      assert a + b == b;
    } else {
      var r := Dispatch(l, s, a[0], w);
      assert (a + b)[0] == a[0];
      assert (a + b)[1..] == a[1..] + b;
      RunAppend(r.ledger, r.session, a[1..], b, w);
    }
  }

  /** The start button, the product photo, then name, brand and category. */
  function CardDetails(p: Profile, fileId: string, name: string, brand: string, category: string): seq<Update> {
    [CallbackUpdate(p, "start_card_generation"), MessageUpdate(p, Photo(fileId, None)),
     MessageUpdate(p, Text(name)), MessageUpdate(p, Text(brand)), MessageUpdate(p, Text(category))]
  }

  /** A whole card conversation: the details, the audience, the selling points. */
  function CardConversation(p: Profile, fileId: string, name: string, brand: string, category: string,
                            audience: string, points: string): seq<Update> {
    CardDetails(p, fileId, name, brand, category) + [MessageUpdate(p, Text(audience)), MessageUpdate(p, Text(points))]
  }

  /** The start button and the photo: the conversation asks for the name,
      with the photo stored. */
  lemma CardOpened(l: Ledger, p: Profile, fileId: string, w: World)
    ensures var r := Run(l, Cleared, [CallbackUpdate(p, "start_card_generation"), MessageUpdate(p, Photo(fileId, None))], w);
      && r.ledger == GetOrCreateUser(l, p).ledger
      && r.session == CardFlow.OnPhoto(CardFlow.Start(Cleared), Photo(fileId, None))
  {
    var u1 := CallbackUpdate(p, "start_card_generation");
    var u2 := MessageUpdate(p, Photo(fileId, None));
    GetOrCreateIdempotent(l, p);
    var lf := GetOrCreateUser(l, p).ledger;
    var s1 := CardFlow.Start(Cleared);
    var s2 := CardFlow.OnPhoto(s1, Photo(fileId, None));
    assert Run(l, Cleared, [u1, u2], w) == Run(lf, s1, [u2], w) by {
      assert [u1, u2] == [u1] + [u2];
      RunCons(l, Cleared, u1, [u2], w);
      CardStartStep(l, Cleared, p, w);
    }
    assert Run(lf, s1, [u2], w) == Run(lf, s2, [], w) by {
      assert [u2] == [u2] + [];
      CardMessageRun(lf, s1, p, Photo(fileId, None), [], w);
    }
  }

  /** Two plain texts while the name is asked for store the name and the
      brand, and the ledger is left as fetched. */
  lemma NameAndBrandCollected(l: Ledger, s: Session, p: Profile, name: string, brand: string, w: World)
    requires GetOrCreateUser(l, p).ledger == l
    requires s.state == Some(CardWaitingForCharacteristics) && s.data.characteristicsStep == Some(Name)
    requires PlainText(name) && PlainText(brand)
    ensures Run(l, s, [MessageUpdate(p, Text(name)), MessageUpdate(p, Text(brand))], w)
         == Snapshot(l, CardFlow.OnCharacteristics(CardFlow.OnCharacteristics(s, Text(name)), Text(brand)))
  {
    var u3 := MessageUpdate(p, Text(name));
    var u4 := MessageUpdate(p, Text(brand));
    var s3 := CardFlow.OnCharacteristics(s, Text(name));
    var s4 := CardFlow.OnCharacteristics(s3, Text(brand));
    assert Run(l, s, [u3, u4], w) == Run(l, s3, [u4], w) by {
      assert [u3, u4] == [u3] + [u4];
      CharacteristicRun(l, s, p, name, [u4], w);
    }
    assert Run(l, s3, [u4], w) == Snapshot(l, s4) by {
      assert [u4] == [u4] + [];
      CharacteristicRun(l, s3, p, brand, [], w);
    }
  }

  /** Three plain texts while the name is asked for go, in order, to the
      characteristics handler, and the ledger is left as fetched. */
  lemma CharacteristicsCollected(l: Ledger, s: Session, p: Profile, name: string, brand: string,
                                 category: string, w: World)
    requires GetOrCreateUser(l, p).ledger == l
    requires s.state == Some(CardWaitingForCharacteristics) && s.data.characteristicsStep == Some(Name)
    requires PlainText(name) && PlainText(brand) && PlainText(category)
    ensures Run(l, s, [MessageUpdate(p, Text(name)), MessageUpdate(p, Text(brand)),
                       MessageUpdate(p, Text(category))], w)
         == Snapshot(l, CardFlow.OnCharacteristics(CardFlow.OnCharacteristics(
              CardFlow.OnCharacteristics(s, Text(name)), Text(brand)), Text(category)))
  {
    var u3 := MessageUpdate(p, Text(name));
    var u4 := MessageUpdate(p, Text(brand));
    var u5 := MessageUpdate(p, Text(category));
    var s4 := CardFlow.OnCharacteristics(CardFlow.OnCharacteristics(s, Text(name)), Text(brand));
    assert Run(l, s, [u3, u4, u5], w) == Run(l, s4, [u5], w) by {
      assert [u3, u4, u5] == [u3, u4] + [u5];
      RunAppend(l, s, [u3, u4], [u5], w);
      NameAndBrandCollected(l, s, p, name, brand, w);
    }
    assert Run(l, s4, [u5], w) == Snapshot(l, CardFlow.OnCharacteristics(s4, Text(category))) by {
      assert [u5] == [u5] + [];
      CharacteristicRun(l, s4, p, category, [], w);
    }
  }

  /** One characteristic text at the head of a run is stored by the
      characteristics handler and leaves the fetched ledger alone. */
  lemma CharacteristicRun(l: Ledger, s: Session, p: Profile, t: string, rest: seq<Update>, w: World)
    requires GetOrCreateUser(l, p).ledger == l
    requires s.state == Some(CardWaitingForCharacteristics) && PlainText(t)
    ensures Run(l, s, [MessageUpdate(p, Text(t))] + rest, w)
         == Run(l, CardFlow.OnCharacteristics(s, Text(t)), rest, w)
  {
    CardMessageRun(l, s, p, Text(t), rest, w);
  }

  /** After the details the conversation waits for the audience with the
      photo and the three stripped characteristics stored, and the only
      ledger change is the sender's row being fetched. */
  lemma CardDetailsCollected(l: Ledger, p: Profile, fileId: string, name: string, brand: string,
                             category: string, w: World)
    requires PlainText(name) && PlainText(brand) && PlainText(category)
    ensures var r := Run(l, Cleared, CardDetails(p, fileId, name, brand, category), w);
      && r.ledger == GetOrCreateUser(l, p).ledger
      && r.session.state == Some(CardWaitingForAudience)
      && r.session.data.photoFileId == Some(fileId)
      && r.session.data.characteristics == Characteristics(Some(Strip(name)), Some(Strip(brand)), Some(Strip(category)))
  {
    var opening := [CallbackUpdate(p, "start_card_generation"), MessageUpdate(p, Photo(fileId, None))];
    var texts := [MessageUpdate(p, Text(name)), MessageUpdate(p, Text(brand)), MessageUpdate(p, Text(category))];
    assert CardDetails(p, fileId, name, brand, category) == opening + texts;
    RunAppend(l, Cleared, opening, texts, w);
    CardOpened(l, p, fileId, w);
    GetOrCreateIdempotent(l, p);
    var lf := GetOrCreateUser(l, p).ledger;
    var s1 := CardFlow.Start(Cleared);
    var s2 := CardFlow.OnPhoto(s1, Photo(fileId, None));
    CharacteristicsCollected(lf, s2, p, name, brand, category, w);
    CardFlow.CharacteristicsInOrder(s1, fileId, name, brand, category);
  }

  /** From the audience question, an audience and selling points with a
      sufficient balance end the conversation and debit the sender once. */
  lemma CardFinished(l: Ledger, s: Session, p: Profile, audience: string, points: string, w: World)
    requires Keyed(l) && p.id in l && l[p.id].creditsRemaining >= CardFlow.CardGenerationCost
    requires GetOrCreateUser(l, p).ledger == l
    requires s.state == Some(CardWaitingForAudience) && s.data.photoFileId.Some? && s.data.photoFileId != Some("")
    requires Truthy(s.data.characteristics.name) && Truthy(s.data.characteristics.brand)
    requires Truthy(s.data.characteristics.category)
    requires PlainText(audience) && PlainText(points)
    ensures var r := Run(l, s, [MessageUpdate(p, Text(audience)), MessageUpdate(p, Text(points))], w);
      && r.session == Cleared
      && r.ledger == UseCredits(l, p.id, CardFlow.CardGenerationCost).ledger
  {
    var u6 := MessageUpdate(p, Text(audience));
    var u7 := MessageUpdate(p, Text(points));
    var s6 := CardFlow.OnAudience(s, Text(audience));
    assert Run(l, s, [u6, u7], w) == Run(l, s6, [u7], w) by {
      assert [u6, u7] == [u6] + [u7];
      CardMessageRun(l, s, p, Text(audience), [u7], w);
    }
    var r7 := Dispatch(l, s6, u7, w);
    assert r7.session == Cleared && r7.ledger == UseCredits(l, p.id, CardFlow.CardGenerationCost).ledger by {
      assert CardFlow.Complete(s6.data.(sellingPoints := Some(points)));
      GenerationStep(l, s6, p, points, w);
    }
    assert Run(l, s6, [u7], w) == Run(r7.ledger, r7.session, [], w) by {
      assert [u7] == [u7] + [];
      RunCons(l, s6, u7, [], w);
    }
  }

  /** A whole card conversation, from the start button through the selling
      points, calls the card service once and costs exactly one credit,
      moved from the balance to the used counter. */
  lemma CardConversationCostsOne(l: Ledger, p: Profile, fileId: string,
                                 name: string, brand: string, category: string,
                                 audience: string, points: string, w: World)
    requires Keyed(l) && p.id in l && l[p.id].creditsRemaining >= CardFlow.CardGenerationCost
    requires fileId != "" && Strip(name) != "" && Strip(brand) != "" && Strip(category) != ""
    requires PlainText(name) && PlainText(brand) && PlainText(category)
    requires PlainText(audience) && PlainText(points)
    ensures var r := Run(l, Cleared, CardConversation(p, fileId, name, brand, category, audience, points), w);
      && r.session == Cleared
      && p.id in r.ledger
      && r.ledger[p.id].creditsRemaining == l[p.id].creditsRemaining - CardFlow.CardGenerationCost
      && r.ledger[p.id].creditsUsed == l[p.id].creditsUsed + CardFlow.CardGenerationCost
  {
    var details := CardDetails(p, fileId, name, brand, category);
    var rest := [MessageUpdate(p, Text(audience)), MessageUpdate(p, Text(points))];
    RunAppend(l, Cleared, details, rest, w);
    CardDetailsCollected(l, p, fileId, name, brand, category, w);
    var r5 := Run(l, Cleared, details, w);
    GetOrCreateIdempotent(l, p);
    CardFinished(r5.ledger, r5.session, p, audience, points, w);
  }
}

=== FILE: fsm.dfy ===
/** The per-user conversation context the bot's handlers share (aiogram's
    `FSMContext`): the current state, if any, and the data dictionary. */
module Fsm {
  import opened Common

  /** The states of `CardGenerationStates` and `PhotoProcessingStates`. */
  datatype State =
    | CardWaitingForPhoto
    | CardWaitingForCharacteristics
    | CardWaitingForAudience
    | CardWaitingForSellingPoints
    | PhotoWaitingForPhoto
    | PhotoWaitingForPrompt

  predicate IsCardState(st: State) {
    st.CardWaitingForPhoto? || st.CardWaitingForCharacteristics? || st.CardWaitingForAudience?
    || st.CardWaitingForSellingPoints?
  }

  /** Which characteristic the card flow asks for next (`characteristics_step`). */
  datatype CharStep = Name | Brand | Category

  /** The `characteristics` dictionary; an absent key reads as `None`. */
  datatype Characteristics = Characteristics(name: Option<string>, brand: Option<string>,
                                             category: Option<string>)

  const NoCharacteristics: Characteristics := Characteristics(None, None, None)

  /** The data dictionary; an absent key and a key set to `None` read alike. */
  datatype Data = Data(photoFileId: Option<string>, characteristics: Characteristics,
                       characteristicsStep: Option<CharStep>, targetAudience: Option<string>,
                       sellingPoints: Option<string>, prompt: Option<string>)

  const EmptyData: Data := Data(None, NoCharacteristics, None, None, None, None)

  datatype Session = Session(state: Option<State>, data: Data)

  /** `state.clear()`: no state and no data. */
  const Cleared: Session := Session(None, EmptyData)

  /** What an incoming message carries. A photo or another attachment may
      come with a caption; a text message's text is its only text. */
  datatype Content =
    | Photo(fileId: string, caption: Option<string>)
    | Text(text: string)
    | PaymentDone(payload: string)
    | OtherContent(caption: Option<string>)

  /** What the data must hold in each state for the flow to have got there
      through its own handlers. */
  ghost predicate Consistent(s: Session) {
    var d := s.data;
    var ch := d.characteristics;
    match s.state
    case None => true
    case Some(CardWaitingForPhoto) => true
    case Some(CardWaitingForCharacteristics) =>
      && d.photoFileId.Some?
      && d.characteristicsStep.Some?
      && (d.characteristicsStep == Some(Brand) ==> ch.name.Some?)
      && (d.characteristicsStep == Some(Category) ==> ch.name.Some? && ch.brand.Some?)
    case Some(CardWaitingForAudience) =>
      d.photoFileId.Some? && ch.name.Some? && ch.brand.Some? && ch.category.Some?
    case Some(CardWaitingForSellingPoints) =>
      && d.photoFileId.Some? && ch.name.Some? && ch.brand.Some? && ch.category.Some?
      && d.targetAudience.Some?
    case Some(PhotoWaitingForPhoto) => true
    case Some(PhotoWaitingForPrompt) => d.photoFileId.Some?
  }
}

=== FILE: gpt_service.dfy ===
/** The HTTP service the bot calls (`gpt_integration/service.py`): the
    API-key check both endpoints share, the status of a generated card, the
    classification of photo-processing failures and the listening port. */
module GptService {
  import opened Common
  import opened Strings
  import PyInt

  /** `not x_api_key or x_api_key != expected_key`, negated. A key is
      accepted exactly when it is the configured one and that one is not
      empty: with `API_SECRET_KEY` unset every request is refused. */
  function ApiKeyAccepted(header: Option<string>, expected: string): (r: bool)
    ensures r <==> header == Some(expected) && expected != ""
  {
    Truthy(header) && header.value == expected
  }

  /** What an endpoint answers: an `HTTPException` (status and detail) or a
      200 JSON body. */
  datatype Response =
    | HttpFailure(code: int, detail: string)
    | CardBody(status: string, card: string)
    | PhotoSuccess(result: string)
    | PhotoError(errorType: string, message: string)

  function StatusCode(r: Response): int {
    if r.HttpFailure? then r.code else 200
  }

  const Forbidden: Response := HttpFailure(403, "Invalid or missing API key")

  /** How the card generator returned: its result's `card` entry (absent or
      present), an `HTTPException` it raised, or any other exception. */
  datatype CardOutcome =
    | Generated(card: Option<string>)
    | CardHttpRaised(code: int, detail: string)
    | CardCrashed(message: string)

  /** `POST /v1/card/generate`. */
  function CardEndpoint(header: Option<string>, expected: string, outcome: CardOutcome): (r: Response)
    ensures !ApiKeyAccepted(header, expected) ==> r == Forbidden
    ensures StatusCode(r) == 403 <==>
      !ApiKeyAccepted(header, expected) || (outcome.CardHttpRaised? && outcome.code == 403)
    ensures ApiKeyAccepted(header, expected) && outcome.Generated? ==>
      && r.CardBody?
      && r.card == outcome.card.GetOr("")
      && (r.status == "error" <==> Contains(r.card, "ERROR"))
      && (r.status == "success" <==> !Contains(r.card, "ERROR"))
    ensures ApiKeyAccepted(header, expected) && outcome.CardHttpRaised? ==>
      r == HttpFailure(outcome.code, outcome.detail)
    ensures ApiKeyAccepted(header, expected) && outcome.CardCrashed? ==>
      r == HttpFailure(500, "Internal server error: " + outcome.message)
  {
    if !ApiKeyAccepted(header, expected) then Forbidden
    else
      match outcome
      case Generated(card) =>
        var text := card.GetOr("");
        if Contains(text, "ERROR") then CardBody("error", text) else CardBody("success", text)
      case CardHttpRaised(code, detail) => HttpFailure(code, detail)
      case CardCrashed(message) => HttpFailure(500, "Internal server error: " + message)
  }

  /** The card status is decided by where `ERROR` occurs in the text, if
      anywhere, and the text is passed through untouched. */
  lemma CardStatusByOccurrence(header: Option<string>, expected: string, card: string)
    requires ApiKeyAccepted(header, expected)
    ensures var r := CardEndpoint(header, expected, Generated(Some(card)));
      && r.card == card
      && (r.status == "error" <==> exists i :: OccursAt(card, "ERROR", i))
  {
    ContainsIffOccurs(card, "ERROR");
  }

  const TimeoutMessage: string := "Превышено время ожидания обработки"
  const ApiErrorMessage: string := "Ошибка при обращении к сервису обработки изображений"
  const ProcessingPrefix: string := "Ошибка обработки: "

  /** The error kinds the photo endpoint reports, with the user-facing text. */
  datatype Classified = Classified(errorType: string, message: string)

  /** The `except Exception` branch of `POST /v1/photo/process`: checked in
      order on the lower-cased message, `timeout` wins over `api`/`network`,
      and anything else is reported with the original message appended. */
  function ClassifyPhotoError(message: string): (r: Classified)
    ensures r.errorType in {"timeout", "api_error", "processing__error"}
    ensures r.errorType == "timeout" ==> r.message == TimeoutMessage
    ensures r.errorType == "api_error" ==> r.message == ApiErrorMessage
    ensures r.errorType == "processing__error" ==>
      StartsWith(r.message, ProcessingPrefix) && r.message[|ProcessingPrefix|..] == message
  {
    var low := Lower(message);
    if Contains(low, "timeout") then Classified("timeout", TimeoutMessage)
    else if Contains(low, "api") || Contains(low, "network") then Classified("api_error", ApiErrorMessage)
    else Classified("processing__error", ProcessingPrefix + message)
  }

  /** The classification in positional terms: a `timeout` anywhere in the
      lower-cased message decides it; otherwise an `api` or `network`
      anywhere; otherwise the message is kept. */
  lemma ClassifyByOccurrence(message: string)
    ensures var low := Lower(message);
      var r := ClassifyPhotoError(message);
      && (r.errorType == "timeout" <==> exists i :: OccursAt(low, "timeout", i))
      && (r.errorType == "api_error" <==>
          (!exists i :: OccursAt(low, "timeout", i))
          && ((exists i :: OccursAt(low, "api", i)) || (exists i :: OccursAt(low, "network", i))))
  {
    var low := Lower(message);
    ContainsIffOccurs(low, "timeout");
    ContainsIffOccurs(low, "api");
    ContainsIffOccurs(low, "network");
  }

  /** The kind of error does not depend on the message's letter case. */
  lemma ClassifyIgnoresCase(message: string)
    ensures ClassifyPhotoError(Lower(message)).errorType == ClassifyPhotoError(message).errorType
  {
    LowerIdempotent(message);
  }

  /** How `process_photo` returned: a result, a `ValueError`, or any other
      exception. */
  datatype PhotoOutcome =
    | Processed(result: string)
    | Invalid(message: string)
    | PhotoCrashed(message: string)

  /** `POST /v1/photo/process`. */
  function PhotoEndpoint(header: Option<string>, expected: string, outcome: PhotoOutcome): (r: Response)
    ensures !ApiKeyAccepted(header, expected) ==> r == Forbidden
    ensures StatusCode(r) == 403 <==> !ApiKeyAccepted(header, expected)
    ensures ApiKeyAccepted(header, expected) ==>
      && (StatusCode(r) == 400 <==> outcome.Invalid?)
      && (outcome.Invalid? ==> r.detail == outcome.message)
      && (r.PhotoSuccess? <==> outcome.Processed?)
      && (outcome.Processed? ==> r.result == outcome.result)
      && (outcome.PhotoCrashed? ==> r.PhotoError? && StatusCode(r) == 200)
  {
    if !ApiKeyAccepted(header, expected) then Forbidden
    else
      match outcome
      case Processed(result) => PhotoSuccess(result)
      case Invalid(message) => HttpFailure(400, message)
      case PhotoCrashed(message) =>
        var c := ClassifyPhotoError(message);
        PhotoError(c.errorType, c.message)
  }

  const DefaultPort: int := 9001

  /** The `__main__` block: `GPT_PORT`, or `"9001"` when unset or empty
      (see `DefaultPortText`), read with `int()`; 9001 again when that fails. */
  function Port(env: Option<string>): (r: int)
    ensures !Truthy(env) ==> r == DefaultPort
    ensures Truthy(env) && PyInt.Parse(env.value).None? ==> r == DefaultPort
    ensures Truthy(env) && PyInt.Parse(env.value).Some? ==> r == PyInt.Parse(env.value).value
  {
    var s := if Truthy(env) then env.value else PyInt.Show(DefaultPort);
    PyInt.ParseShow(DefaultPort);
    match PyInt.Parse(s)
    case Some(p) => p
    case None => DefaultPort
  }

  /** The default port string `"9001"` is the decimal form of 9001. */
  lemma DefaultPortText()
    ensures PyInt.Show(DefaultPort) == "9001"
  {
    assert PyInt.ShowNat(9) == "9";
    assert PyInt.ShowNat(90) == "90";
    assert PyInt.ShowNat(900) == "900";
  }

  /** Any port written in decimal is the port the service listens on. */
  lemma PortShow(n: int)
    ensures Port(Some(PyInt.Show(n))) == n
  {
    PyInt.ParseShow(n);
  }
}

=== FILE: image_client.dfy ===
/** The image-generation client (`gpt_integration/photo_processing/image_client.py`):
    base64 helpers, the data URI it returns, the request `parts` it sends,
    and how it reads the first image out of a Gemini response. */
module ImageClient {
  import opened Common
  import opened Strings
  import Base64

  /** MIME type used when the response names none. */
  const DefaultMime: string := "image/png"

  /** `_encode_image_to_base64`. */
  function EncodeImage(bytes: seq<Base64.Byte>): string {
    Base64.Encode(bytes)
  }

  /** `_decode_base64_image`. */
  function DecodeImage(b64: string): Option<seq<Base64.Byte>> {
    Base64.Decode(b64)
  }

  /** The two helpers are inverse: an image survives encoding and decoding. */
  lemma DecodeEncodeImage(bytes: seq<Base64.Byte>)
    ensures DecodeImage(EncodeImage(bytes)) == Some(bytes)
  {
    Base64.DecodeEncode(bytes);
  }

  /** `_to_telegram_data_uri`: `data:<mime>;base64,<b64>`. */
  function ToDataUri(mime: string, b64: string): (r: string)
    ensures StartsWith(r, "data:" + mime)
    ensures |r| == |mime| + |b64| + 13 && r[|r| - |b64|..] == b64
  {
    "data:" + mime + ";base64," + b64
  }

  /** With no comma in either part, the URI has exactly one comma, and what
      follows it is the base64 text. */
  lemma DataUriFields(mime: string, b64: string)
    requires ',' !in mime && ',' !in b64
    ensures Split(ToDataUri(mime, b64), ',') == ["data:" + mime + ";base64", b64]
  {
    var head := "data:" + mime + ";base64";
    assert ToDataUri(mime, b64) == head + [','] + b64;
    SplitFirstField(head, ',', b64);
    SplitSeparatorFree(b64, ',');
  }

  /** One inline image of the request, `{"inline_data": {"mime_type", "data"}}`. */
  datatype InlineImage = InlineImage(mimeType: string, data: string)

  datatype RequestPart = TextPart(text: string) | ImagePart(image: InlineImage)

  /** A downloaded input image and the MIME type detected for it. */
  datatype Download = Download(bytes: seq<Base64.Byte>, mime: string)

  /** `_download_and_prepare_image`, after the download. */
  function PrepareImage(d: Download): InlineImage {
    InlineImage(d.mime, EncodeImage(d.bytes))
  }

  /** The `parts` of the request body: the prompt first, then one inline
      image per download, in the order the URLs were given. */
  method BuildParts(prompt: string, downloads: seq<Download>) returns (parts: seq<RequestPart>)
    ensures |parts| == |downloads| + 1
    ensures parts[0] == TextPart(prompt)
    ensures forall i :: 1 <= i < |parts| ==>
      && parts[i].ImagePart?
      && parts[i].image.mimeType == downloads[i - 1].mime
      && DecodeImage(parts[i].image.data) == Some(downloads[i - 1].bytes)
  {
    parts := [TextPart(prompt)];
    var k := 0;
    while k < |downloads|
      invariant 0 <= k <= |downloads|
      invariant |parts| == k + 1
      invariant parts[0] == TextPart(prompt)
      invariant forall i :: 1 <= i < |parts| ==>
        && parts[i].ImagePart?
        && parts[i].image.mimeType == downloads[i - 1].mime
        && DecodeImage(parts[i].image.data) == Some(downloads[i - 1].bytes)
    {
      DecodeEncodeImage(downloads[k].bytes);
      parts := parts + [ImagePart(PrepareImage(downloads[k]))];
      k := k + 1;
    }
  }

  /** The `inlineData` / `inline_data` object of a response part. An empty
      object is false in Python; `otherKeys` records keys not listed here. */
  datatype Inline = Inline(mimeType: Option<string>, mimeTypeSnake: Option<string>,
                           data: Option<string>, otherKeys: bool)

  /** A response part with its `inlineData` and `inline_data` keys. */
  datatype Part = Part(inlineData: Option<Inline>, inlineDataSnake: Option<Inline>)

  datatype Content = Content(parts: Option<seq<Part>>)
  datatype Candidate = Candidate(content: Option<Content>)
  datatype GeminiResponse = GeminiResponse(candidates: Option<seq<Candidate>>)

  predicate NonEmpty(i: Option<Inline>) {
    i.Some? && (i.value.mimeType.Some? || i.value.mimeTypeSnake.Some? || i.value.data.Some?
                || i.value.otherKeys)
  }

  /** `part.get("inlineData") or part.get("inline_data")`, when it is true. */
  function ChosenInline(p: Part): Option<Inline> {
    if NonEmpty(p.inlineData) then p.inlineData
    else if NonEmpty(p.inlineDataSnake) then p.inlineDataSnake
    else None
  }

  /** `mimeType`, else `mime_type`, else `image/png`. */
  function OutputMime(i: Inline): string {
    OrElse(OrElse(i.mimeType, i.mimeTypeSnake), Some(DefaultMime)).value
  }

  function Candidates(resp: GeminiResponse): seq<Candidate> {
    resp.candidates.GetOr([])
  }

  /** The parts of the first candidate (`content or {}`, `parts or []`). */
  function FirstCandidateParts(resp: GeminiResponse): seq<Part>
    requires |Candidates(resp)| > 0
  {
    var c := Candidates(resp)[0];
    if c.content.Some? then c.content.value.parts.GetOr([]) else []
  }

  /** Part `k` is the first part carrying an inline object. */
  ghost predicate IsFirstInline(parts: seq<Part>, k: int) {
    0 <= k < |parts| && ChosenInline(parts[k]).Some?
    && forall j :: 0 <= j < k ==> ChosenInline(parts[j]).None?
  }

  datatype ImageError = NoCandidates | NoImageData | HttpError(status: int)
  datatype ImageResult = ImageOk(dataUri: string) | ImageFailed(error: ImageError)

  /** `r` is what the response parsing of `process_images` makes of `resp`:
      only the first candidate is read, the first part with an inline object
      wins (no later part is consulted even when its data is missing), and
      the image comes back as a data URI. */
  ghost predicate IsExtraction(resp: GeminiResponse, r: ImageResult) {
    && (|Candidates(resp)| == 0 ==> r == ImageFailed(NoCandidates))
    && (|Candidates(resp)| > 0 ==>
          var parts := FirstCandidateParts(resp);
          && ((forall j :: 0 <= j < |parts| ==> ChosenInline(parts[j]).None?) ==> r == ImageFailed(NoImageData))
          && (forall k :: IsFirstInline(parts, k) ==>
                var i := ChosenInline(parts[k]).value;
                r == if Truthy(i.data) then ImageOk(ToDataUri(OutputMime(i), i.data.value))
                     else ImageFailed(NoImageData)))
  }

  /** Some part is the first with an inline object as soon as any part has one. */
  lemma {:induction false} FirstInlineExists(parts: seq<Part>, j: int) returns (k: int)
    requires 0 <= j < |parts| && ChosenInline(parts[j]).Some?
    ensures IsFirstInline(parts, k)
    decreases j
  {
    if forall i :: 0 <= i < j ==> ChosenInline(parts[i]).None? {
      k := j;
    } else {
      var i :| 0 <= i < j && ChosenInline(parts[i]).Some?;
      k := FirstInlineExists(parts, i);
    }
  }

  /** The description of the parsing leaves no freedom: one response has one
      outcome. */
  lemma ExtractionUnique(resp: GeminiResponse, r1: ImageResult, r2: ImageResult)
    requires IsExtraction(resp, r1) && IsExtraction(resp, r2)
    ensures r1 == r2
  {
    if |Candidates(resp)| > 0 {
      var parts := FirstCandidateParts(resp);
      if j :| 0 <= j < |parts| && ChosenInline(parts[j]).Some? {
        var k := FirstInlineExists(parts, j);
      }
    }
  }

  method ExtractImage(resp: GeminiResponse) returns (r: ImageResult)
    ensures IsExtraction(resp, r)
    ensures r.ImageOk? ==> StartsWith(r.dataUri, "data:")
  {
    var candidates := Candidates(resp);
    if |candidates| == 0 {
      return ImageFailed(NoCandidates);
    }
    var parts := FirstCandidateParts(resp);
    var k := 0;
    while k < |parts| && ChosenInline(parts[k]).None?
      invariant 0 <= k <= |parts|
      invariant forall j :: 0 <= j < k ==> ChosenInline(parts[j]).None?
    {
      k := k + 1;
    }
    if k == |parts| {
      return ImageFailed(NoImageData);
    }
    assert IsFirstInline(parts, k);
    var inline := ChosenInline(parts[k]).value;
    if !Truthy(inline.data) {
      return ImageFailed(NoImageData);
    }
    r := ImageOk(ToDataUri(OutputMime(inline), inline.data.value));
    assert StartsWith(r.dataUri, "data:") by {
      assert r.dataUri[..5] == "data:";
    }
  }

  /** `process_images` after the POST: an HTTP error status fails the call,
      otherwise the body is parsed as above. */
  method ProcessImagesResponse(status: int, body: GeminiResponse) returns (r: ImageResult)
    ensures status >= 400 ==> r == ImageFailed(HttpError(status))
    ensures status < 400 ==> IsExtraction(body, r)
    ensures r.ImageOk? ==> status < 400 && StartsWith(r.dataUri, "data:")
  {
    if status >= 400 {
      return ImageFailed(HttpError(status));
    }
    r := ExtractImage(body);
  }
}

=== FILE: ledger.dfy ===
/** The user table and its credit operations (`bot/database/crud.py`), as a
    map from Telegram id to an immutable user record. */
module Ledger {
  import opened Common

  /** Starting balance of a new row (`credits_remaining` column default). */
  const DefaultCredits: int := 125

  /** The display fields Telegram sends with every event (`types.User`). */
  datatype Profile = Profile(id: int, username: Option<string>, firstName: Option<string>,
                             lastName: Option<string>)

  /** One row of the `users` table. `referredBy` and `referralEarnings` stand
      for the referral columns the payment handler reads and bumps. */
  datatype User = User(telegramId: int, username: Option<string>, firstName: Option<string>,
                       lastName: Option<string>, creditsRemaining: int, creditsUsed: int,
                       referredBy: Option<int>, referralEarnings: int)

  type Ledger = map<int, User>

  /** `telegram_id` is unique: each row sits under its own id. */
  ghost predicate Keyed(l: Ledger) {
    forall id :: id in l ==> l[id].telegramId == id
  }

  /** Balances are never negative and the lifetime counters never drop below zero. */
  ghost predicate Solvent(l: Ledger) {
    forall id :: id in l ==> l[id].creditsRemaining >= 0 && l[id].creditsUsed >= 0
  }

  ghost predicate Inv(l: Ledger) {
    Keyed(l) && Solvent(l)
  }

  /** Every row except `id`'s is the same in `l` and `l'`, and no row appears or disappears. */
  ghost predicate OthersUnchanged(l: Ledger, l': Ledger, id: int) {
    && l'.Keys == l.Keys
    && forall other :: other in l && other != id ==> l'[other] == l[other]
  }

  /** `get_user`: the row with this Telegram id, if any. */
  function GetUser(l: Ledger, id: int): (r: Option<User>)
    ensures r.Some? <==> id in l
    ensures r.Some? ==> r.value == l[id]
    ensures Keyed(l) && r.Some? ==> r.value.telegramId == id
  {
    if id in l then Some(l[id]) else None
  }

  function Display(u: User, p: Profile): bool {
    u.username == p.username && u.firstName == p.firstName && u.lastName == p.lastName
  }

  function NewUser(p: Profile): User {
    User(p.id, p.username, p.firstName, p.lastName, DefaultCredits, 0, None, 0)
  }

  datatype Fetched = Fetched(ledger: Ledger, user: User)

  /** `get_or_create_user`: refresh the display fields of an existing row, or
      insert a fresh row with the default balance. */
  function GetOrCreateUser(l: Ledger, p: Profile): (r: Fetched)
    ensures Keyed(l) ==> Keyed(r.ledger) && r.user.telegramId == p.id
    ensures r.ledger.Keys == l.Keys + {p.id}
    ensures p.id in r.ledger && r.ledger[p.id] == r.user
    ensures forall other :: other in l && other != p.id ==> r.ledger[other] == l[other]
    ensures Display(r.user, p)
    ensures p.id in l ==>
      && r.user.creditsRemaining == l[p.id].creditsRemaining
      && r.user.creditsUsed == l[p.id].creditsUsed
      && r.user.referredBy == l[p.id].referredBy
      && r.user.referralEarnings == l[p.id].referralEarnings
    ensures p.id !in l ==>
      && r.user.telegramId == p.id
      && r.user.creditsRemaining == DefaultCredits && r.user.creditsUsed == 0
      && r.user.referredBy == None && r.user.referralEarnings == 0
  {
    match GetUser(l, p.id)
    case Some(u) =>
      if !Display(u, p) then
        var u' := u.(username := p.username, firstName := p.firstName, lastName := p.lastName);
        Fetched(l[p.id := u'], u')
      else Fetched(l, u)
    case None =>
      var u := NewUser(p);
      Fetched(l[p.id := u], u)
  }

  /** `has_credits`: false for an unknown id, otherwise whether the balance
      covers `amount`; exactly the condition under which `use_credits` debits. */
  function HasCredits(l: Ledger, id: int, amount: int): (r: bool)
    ensures id !in l ==> !r
    ensures r <==> UseCredits(l, id, amount).ok
  {
    id in l && l[id].creditsRemaining >= amount
  }

  datatype Applied = Applied(ok: bool, ledger: Ledger)

  /** `use_credits`: debit `amount` and count it as used, if the user exists
      and the balance covers it. */
  function UseCredits(l: Ledger, id: int, amount: int): (r: Applied)
    ensures r.ok <==> id in l && l[id].creditsRemaining >= amount
    ensures !r.ok ==> r.ledger == l
    ensures OthersUnchanged(l, r.ledger, id)
    ensures r.ok ==>
      && r.ledger[id].creditsRemaining == l[id].creditsRemaining - amount
      && r.ledger[id].creditsUsed == l[id].creditsUsed + amount
      && r.ledger[id] == l[id].(creditsRemaining := r.ledger[id].creditsRemaining,
                                creditsUsed := r.ledger[id].creditsUsed)
  {
    if id in l && l[id].creditsRemaining >= amount then
      var u := l[id];
      Applied(true, l[id := u.(creditsRemaining := u.creditsRemaining - amount,
                               creditsUsed := u.creditsUsed + amount)])
    else Applied(false, l)
  }

  /** `add_credits`: raise the balance by a positive `amount` of a known user. */
  function AddCredits(l: Ledger, id: int, amount: int): (r: Applied)
    ensures r.ok <==> id in l && amount > 0
    ensures !r.ok ==> r.ledger == l
    ensures OthersUnchanged(l, r.ledger, id)
    ensures r.ok ==>
      r.ledger[id] == l[id].(creditsRemaining := l[id].creditsRemaining + amount)
  {
    if id in l && amount > 0 then
      Applied(true, l[id := l[id].(creditsRemaining := l[id].creditsRemaining + amount)])
    else Applied(false, l)
  }

  /** `add_referral_earnings`, which the repository calls but does not define
      here: bump the lifetime earnings counter of a known user. */
  function AddReferralEarnings(l: Ledger, id: int, amount: int): (r: Applied)
    ensures r.ok <==> id in l
    ensures !r.ok ==> r.ledger == l
    ensures OthersUnchanged(l, r.ledger, id)
    ensures r.ok ==>
      r.ledger[id] == l[id].(referralEarnings := l[id].referralEarnings + amount)
  {
    if id in l then
      Applied(true, l[id := l[id].(referralEarnings := l[id].referralEarnings + amount)])
    else Applied(false, l)
  }

  /** A debit moves credits from `remaining` to `used`: their sum is preserved. */
  lemma UseCreditsConserves(l: Ledger, id: int, amount: int)
    requires id in l
    ensures var l' := UseCredits(l, id, amount).ledger;
      l'[id].creditsRemaining + l'[id].creditsUsed == l[id].creditsRemaining + l[id].creditsUsed
  {
  }

  /** Spending a balance down to exactly the cost leaves too little for a second spend. */
  lemma ExactBalanceSpentOnce(l: Ledger, id: int, amount: int)
    requires amount > 0 && id in l && l[id].creditsRemaining == amount
    ensures UseCredits(l, id, amount).ok
    ensures !HasCredits(UseCredits(l, id, amount).ledger, id, amount)
  {
  }

  /** Calling `get_or_create_user` again with the same profile changes
      nothing and returns the same row: no second creation, no double credit. */
  lemma GetOrCreateIdempotent(l: Ledger, p: Profile)
    ensures var once := GetOrCreateUser(l, p);
      GetOrCreateUser(once.ledger, p) == once
  {
  }

  /** The ledger operations a handler can perform. */
  datatype Op = Fetch(profile: Profile) | Use(id: int, amount: int)
              | Add(id: int, amount: int) | Earn(id: int, amount: int)

  function Apply(l: Ledger, op: Op): Ledger {
    match op
    case Fetch(p) => GetOrCreateUser(l, p).ledger
    case Use(id, a) => UseCredits(l, id, a).ledger
    case Add(id, a) => AddCredits(l, id, a).ledger
    case Earn(id, a) => AddReferralEarnings(l, id, a).ledger
  }

  /** Amounts the callers pass are never negative. */
  predicate NonNegativeAmount(op: Op) {
    match op
    case Fetch(_) => true
    case Use(_, a) => a >= 0
    case Add(_, a) => true
    case Earn(_, a) => a >= 0
  }

  lemma ApplyKeepsInv(l: Ledger, op: Op)
    requires Inv(l) && NonNegativeAmount(op)
    ensures Inv(Apply(l, op))
  {
    match op
    case Fetch(p) =>
    case Use(id, a) =>
    case Add(id, a) =>
    case Earn(id, a) =>
  }

  function ApplyAll(l: Ledger, ops: seq<Op>): Ledger
    decreases |ops|
  {
    if |ops| == 0 then l else ApplyAll(Apply(l, ops[0]), ops[1..])
  }

  /** Every sequence of ledger operations with non-negative amounts keeps
      ids unique and balances non-negative. */
  lemma {:induction false} ApplyAllKeepsInv(l: Ledger, ops: seq<Op>)
    requires Inv(l)
    requires forall i :: 0 <= i < |ops| ==> NonNegativeAmount(ops[i])
    ensures Inv(ApplyAll(l, ops))
    decreases |ops|
  {
    if |ops| > 0 {
      ApplyKeepsInv(l, ops[0]);
      ApplyAllKeepsInv(Apply(l, ops[0]), ops[1..]);
    }
  }

  /** Starting from an empty table, no such sequence drives a balance below zero. */
  lemma BalancesNeverNegative(ops: seq<Op>, id: int)
    requires forall i :: 0 <= i < |ops| ==> NonNegativeAmount(ops[i])
    ensures var l := ApplyAll(map[], ops);
      id in l ==> l[id].creditsRemaining >= 0 && l[id].telegramId == id
  {
    ApplyAllKeepsInv(map[], ops);
  }
}

=== FILE: payment.dfy ===
/** Buying credits with Telegram Stars (`bot/handlers/payment.py`): the
    callback data of the package buttons, the invoice payload, and what a
    successful payment does to the ledger, referral bonus included. */
module Payment {
  import opened Common
  import opened Strings
  import PyInt
  import opened Ledger

  const CreditsKind: string := "credits"

  /** Referral bonus percentage, applied as `int(amount * 0.20)`. */
  const ReferralPercent: int := 20

  /** The package buttons of the purchase menu as (credits, price in Stars). */
  const MenuPackages: seq<(int, int)> :=
    [(70, 50), (160, 100), (500, 250), (2700, 1000), (8000, 2500)]

  /** Their callback data, as written in the menu. */
  const MenuCallbacks: seq<string> :=
    ["buy:credits:70:50", "buy:credits:160:100", "buy:credits:500:250",
     "buy:credits:2700:1000", "buy:credits:8000:2500"]

  /** Callback data `buy:credits:<amount>:<price>` for a package. */
  function PackageCallback(amount: int, price: int): string {
    "buy:credits:" + PyInt.Show(amount) + ":" + PyInt.Show(price)
  }

  /** Invoice payload `buy:credits:<amount>`, echoed back on payment. */
  function InvoicePayload(amount: int): string {
    "buy:credits:" + PyInt.Show(amount)
  }

  /** What `send_invoice_handler` does with a callback. */
  datatype InvoiceDecision =
    | SendInvoice(amount: int, price: int, payload: string)
    | MalformedCallback
    | UnknownPurchaseType(kind: string)

  /** `send_invoice_handler`: exactly four `:`-separated fields with integer
      amount and price, then the purchase type must be `credits`. */
  function HandleBuyCallback(data: string): (r: InvoiceDecision)
    ensures r.SendInvoice? <==>
      && |Split(data, ':')| == 4
      && Split(data, ':')[1] == CreditsKind
      && PyInt.Parse(Split(data, ':')[2]).Some?
      && PyInt.Parse(Split(data, ':')[3]).Some?
    ensures r.SendInvoice? ==>
      && PyInt.Parse(Split(data, ':')[2]) == Some(r.amount)
      && PyInt.Parse(Split(data, ':')[3]) == Some(r.price)
      && r.payload == InvoicePayload(r.amount)
    ensures r.UnknownPurchaseType? ==> r.kind != CreditsKind
  {
    var f := Split(data, ':');
    if |f| != 4 then MalformedCallback
    else
      match (PyInt.Parse(f[2]), PyInt.Parse(f[3]))
      case (Some(amount), Some(price)) =>
        if f[1] != CreditsKind then UnknownPurchaseType(f[1])
        else SendInvoice(amount, price, InvoicePayload(amount))
      case _ => MalformedCallback
  }

  /** The router hands `send_invoice_handler` only data starting `buy:credits:`. */
  predicate RoutedToInvoice(data: string) {
    StartsWith(data, "buy:credits:")
  }

  /** Behind that filter the purchase type is always `credits`: the
      unknown-type rejection cannot fire for routed callbacks. */
  lemma RoutedCallbackHasCreditsType(data: string)
    requires RoutedToInvoice(data)
    ensures !HandleBuyCallback(data).UnknownPurchaseType?
  {
    var rest := data[12..];
    assert data == "buy" + [':'] + ("credits" + [':'] + rest);
    SplitFirstField("buy", ':', "credits" + [':'] + rest);
    SplitFirstField("credits", ':', rest);
  }

  lemma PackageFields(amount: int, price: int)
    ensures Split(PackageCallback(amount, price), ':')
         == ["buy", "credits", PyInt.Show(amount), PyInt.Show(price)]
  {
    var a, p := PyInt.Show(amount), PyInt.Show(price);
    PyInt.ShowHasNo(amount, ':');
    PyInt.ShowHasNo(price, ':');
    var fields := ["buy", "credits", a, p];
    assert Join(fields, ':') == PackageCallback(amount, price) by {
      assert Join(fields[3..], ':') == p;
      assert Join(fields[2..], ':') == a + [':'] + p;
      assert Join(fields[1..], ':') == "credits" + [':'] + (a + [':'] + p);
    }
    SplitJoin(fields, ':');
  }

  /** Every package callback is accepted and invoices its own amount and price. */
  lemma PackageCallbackAccepted(amount: int, price: int)
    ensures HandleBuyCallback(PackageCallback(amount, price))
         == SendInvoice(amount, price, InvoicePayload(amount))
  {
    var f := Split(PackageCallback(amount, price), ':');
    assert |f| == 4 && f[1] == CreditsKind && f[2] == PyInt.Show(amount) && f[3] == PyInt.Show(price) by {
      PackageFields(amount, price);
    }
    PyInt.ParseShow(amount);
    PyInt.ParseShow(price);
    var r := HandleBuyCallback(PackageCallback(amount, price));
    assert r.SendInvoice?;
    assert r.amount == amount && r.price == price;
  }

  lemma PackageText(amount: int, price: int, a: string, p: string)
    requires PyInt.Show(amount) == a && PyInt.Show(price) == p
    ensures PackageCallback(amount, price) == "buy:credits:" + a + ":" + p
  {
  }

  lemma MenuEntry0()
    ensures MenuCallbacks[0] == PackageCallback(70, 50) && MenuPackages[0] == (70, 50)
  {
    PackageText(70, 50, "70", "50");
  }

  lemma MenuEntry1()
    ensures MenuCallbacks[1] == PackageCallback(160, 100) && MenuPackages[1] == (160, 100)
  {
    PackageText(160, 100, "160", "100");
  }

  lemma MenuEntry2()
    ensures MenuCallbacks[2] == PackageCallback(500, 250) && MenuPackages[2] == (500, 250)
  {
    PackageText(500, 250, "500", "250");
  }

  lemma MenuEntry3()
    ensures MenuCallbacks[3] == PackageCallback(2700, 1000) && MenuPackages[3] == (2700, 1000)
  {
    PackageText(2700, 1000, "2700", "1000");
  }

  lemma MenuEntry4()
    ensures MenuCallbacks[4] == PackageCallback(8000, 2500) && MenuPackages[4] == (8000, 2500)
  {
    PackageText(8000, 2500, "8000", "2500");
  }

  lemma MenuCallbackIsPackage(i: int)
    requires 0 <= i < |MenuCallbacks|
    ensures MenuCallbacks[i] == PackageCallback(MenuPackages[i].0, MenuPackages[i].1)
  {
    if i == 0 {
      MenuEntry0();
    } else if i == 1 {
      MenuEntry1();
    } else if i == 2 {
      MenuEntry2();
    } else if i == 3 {
      MenuEntry3();
    } else {
      MenuEntry4();
    }
  }

  /** The five menu buttons all lead to an invoice for their package. */
  lemma MenuCallbacksAccepted(i: int)
    requires 0 <= i < |MenuCallbacks|
    ensures HandleBuyCallback(MenuCallbacks[i])
         == SendInvoice(MenuPackages[i].0, MenuPackages[i].1, InvoicePayload(MenuPackages[i].0))
  {
    MenuCallbackIsPackage(i);
    PackageCallbackAccepted(MenuPackages[i].0, MenuPackages[i].1);
  }

  /** A successful payment's payload: purchase kind and amount. */
  datatype Purchase = Purchase(kind: string, amount: int)

  /** The parse in `success_payment_handler`: exactly three `:`-separated
      fields with an integer last field. */
  function ParseSuccessPayload(payload: string): (r: Option<Purchase>)
    ensures r.Some? <==> |Split(payload, ':')| == 3 && PyInt.Parse(Split(payload, ':')[2]).Some?
    ensures r.Some? ==> r.value.kind == Split(payload, ':')[1]
    ensures r.Some? ==> PyInt.Parse(Split(payload, ':')[2]) == Some(r.value.amount)
  {
    var f := Split(payload, ':');
    if |f| != 3 then None
    else
      match PyInt.Parse(f[2])
      case None => None
      case Some(amount) => Some(Purchase(f[1], amount))
  }

  /** The payload put on an invoice parses back, at payment time, to a
      `credits` purchase of the same amount. */
  lemma InvoicePayloadRoundTrip(amount: int)
    ensures ParseSuccessPayload(InvoicePayload(amount)) == Some(Purchase(CreditsKind, amount))
  {
    var a := PyInt.Show(amount);
    PyInt.ShowHasNo(amount, ':');
    var fields := ["buy", "credits", a];
    assert Join(fields, ':') == InvoicePayload(amount) by {
      assert Join(fields[2..], ':') == a;
      assert Join(fields[1..], ':') == "credits" + [':'] + a;
    }
    SplitJoin(fields, ':');
    PyInt.ParseShow(amount);
  }

  /** Whatever invoice the callback handler sends, paying it credits that
      invoice's amount. */
  lemma InvoiceThenPayment(data: string)
    requires HandleBuyCallback(data).SendInvoice?
    ensures var inv := HandleBuyCallback(data);
      ParseSuccessPayload(inv.payload) == Some(Purchase(CreditsKind, inv.amount))
  {
    InvoicePayloadRoundTrip(HandleBuyCallback(data).amount);
  }

  /** `int(amount * 0.20)`: a fifth of the amount, truncated toward zero. */
  function ReferralBonus(amount: int): (b: int)
    ensures amount >= 0 ==> 0 <= b && 5 * b <= amount < 5 * b + 5
    ensures amount < 0 ==> b <= 0
    ensures b > 0 <==> amount >= 5
  {
    if amount >= 0 then amount * ReferralPercent / 100
    else -((-amount) * ReferralPercent / 100)
  }

  /** `if db_user.referred_by_id:`: a set, non-zero referrer id. */
  function ReferrerOf(buyer: User): Option<int> {
    if buyer.referredBy.Some? && buyer.referredBy.value != 0 then buyer.referredBy else None
  }

  datatype PaymentReply = Credited(amount: int) | InvalidPayload | UnknownPaidType(kind: string)
  datatype Award = NoAward | Awarded(referrer: int, bonus: int)
  datatype PaymentResult = PaymentResult(ledger: Ledger, reply: PaymentReply, award: Award)

  /** The referral part of `success_payment_handler`: one hop, positive bonus only. */
  function ReferralStep(l: Ledger, buyer: User, amount: int): (r: (Ledger, Award))
    ensures r.1.Awarded? <==>
      ReferrerOf(buyer).Some? && ReferrerOf(buyer).value in l && ReferralBonus(amount) > 0
    ensures r.1.NoAward? ==> r.0 == l
    ensures r.0.Keys == l.Keys
    ensures r.1.Awarded? ==> r.1.bonus == ReferralBonus(amount)
    ensures Keyed(l) && r.1.Awarded? ==>
      && r.1.referrer == ReferrerOf(buyer).value
      && r.0[r.1.referrer] == l[r.1.referrer].(
           creditsRemaining := l[r.1.referrer].creditsRemaining + r.1.bonus,
           referralEarnings := l[r.1.referrer].referralEarnings + r.1.bonus)
    ensures r.1.Awarded? ==> OthersUnchanged(l, r.0, r.1.referrer)
  {
    match ReferrerOf(buyer)
    case None => (l, NoAward)
    case Some(refId) =>
      match GetUser(l, refId)
      case None => (l, NoAward)
      case Some(referrer) =>
        var bonus := ReferralBonus(amount);
        if bonus > 0 then
          var l1 := AddCredits(l, referrer.telegramId, bonus).ledger;
          var l2 := AddReferralEarnings(l1, referrer.telegramId, bonus).ledger;
          (l2, Awarded(referrer.telegramId, bonus))
        else (l, NoAward)
  }

  /** `success_payment_handler` for the buyer `buyer` (the row the
      middleware fetched) and the echoed invoice payload. */
  function SuccessPayment(l: Ledger, buyer: User, payload: string): (r: PaymentResult)
    ensures ParseSuccessPayload(payload).None? ==>
      r.ledger == l && r.reply == InvalidPayload && r.award == NoAward
    ensures ParseSuccessPayload(payload).Some? && ParseSuccessPayload(payload).value.kind != CreditsKind ==>
      r.ledger == l && r.reply.UnknownPaidType? && r.award == NoAward
    ensures r.reply.Credited? ==> ParseSuccessPayload(payload) == Some(Purchase(CreditsKind, r.reply.amount))
    ensures ParseSuccessPayload(payload).Some? && ParseSuccessPayload(payload).value.kind == CreditsKind ==>
      r.reply.Credited?
    ensures r.ledger.Keys == l.Keys
    ensures forall id :: id in l && id != buyer.telegramId && !(r.award.Awarded? && id == r.award.referrer)
              ==> r.ledger[id] == l[id]
  {
    match ParseSuccessPayload(payload)
    case None => PaymentResult(l, InvalidPayload, NoAward)
    case Some(p) =>
      if p.kind != CreditsKind then PaymentResult(l, UnknownPaidType(p.kind), NoAward)
      else
        var l1 := AddCredits(l, buyer.telegramId, p.amount).ledger;
        var (l2, award) := ReferralStep(l1, buyer, p.amount);
        PaymentResult(l2, Credited(p.amount), award)
  }

  /** Paying an invoice of `amount` credits the buyer exactly `amount` (when
      positive), and the referrer, a different known user, receives the
      bonus in balance and earnings exactly when it is positive; nothing
      else changes. */
  lemma PaymentEffects(l: Ledger, buyer: User, amount: int)
    requires Keyed(l) && buyer.telegramId in l
    requires ReferrerOf(buyer) != Some(buyer.telegramId)
    ensures var r := SuccessPayment(l, buyer, InvoicePayload(amount));
      var id := buyer.telegramId;
      && r.reply == Credited(amount)
      && r.ledger[id] == (if amount > 0 then l[id].(creditsRemaining := l[id].creditsRemaining + amount) else l[id])
      && (r.award.Awarded? <==> ReferrerOf(buyer).Some? && ReferrerOf(buyer).value in l && amount >= 5)
      && (r.award.Awarded? ==>
            var ref := ReferrerOf(buyer).value;
            && r.award == Awarded(ref, amount / 5)
            && r.ledger[ref].creditsRemaining == l[ref].creditsRemaining + amount / 5
            && r.ledger[ref].referralEarnings == l[ref].referralEarnings + amount / 5
            && r.ledger[ref].creditsUsed == l[ref].creditsUsed)
      && (ReferrerOf(buyer).Some? && ReferrerOf(buyer).value in l && !r.award.Awarded? ==>
            r.ledger[ReferrerOf(buyer).value] == l[ReferrerOf(buyer).value])
  {
    var id := buyer.telegramId;
    InvoicePayloadRoundTrip(amount);
    var l1 := AddCredits(l, id, amount).ledger;
    assert Keyed(l1) by {
      forall other | other in l1 ensures l1[other].telegramId == other {
        if other != id {
          assert l1[other] == l[other];
        }
      }
    }
    var step := ReferralStep(l1, buyer, amount);
    assert SuccessPayment(l, buyer, InvoicePayload(amount)) == PaymentResult(step.0, Credited(amount), step.1);
    if step.1.Awarded? {
      assert step.1.referrer != id;
      assert step.0[id] == l1[id];
      assert l1[step.1.referrer] == l[step.1.referrer];
    }
  }

  /** A payment, valid or not, keeps ids unique and balances non-negative. */
  lemma SuccessPaymentKeepsInv(l: Ledger, buyer: User, payload: string)
    requires Inv(l)
    ensures Inv(SuccessPayment(l, buyer, payload).ledger)
  {
    match ParseSuccessPayload(payload)
    case None =>
    case Some(p) =>
      if p.kind == CreditsKind {
        var l1 := AddCredits(l, buyer.telegramId, p.amount).ledger;
        ApplyKeepsInv(l, Add(buyer.telegramId, p.amount));
        var bonus := ReferralBonus(p.amount);
        match ReferrerOf(buyer)
        case None =>
        case Some(refId) =>
          if refId in l1 && bonus > 0 {
            var l2 := AddCredits(l1, refId, bonus).ledger;
            ApplyKeepsInv(l1, Add(refId, bonus));
            ApplyKeepsInv(l2, Earn(refId, bonus));
          }
      }
  }
}

=== FILE: photo_flow.dfy ===
/** The photo-editing conversation (`bot/handlers/photo_processing.py`):
    photo, then a prompt of 5 to 1500 characters, then a call to the photo
    service. It never reads or writes the credit ledger. */
module PhotoFlow {
  import opened Common
  import opened Strings
  import opened Fsm
  import Base64
  import ImageClient

  const MinPromptLength: int := 5
  const MaxPromptLength: int := 1500

  /** The JSON body of a 200 answer from `/v1/photo/process`: `status`,
      `result.photo_url` and `message`. */
  datatype PhotoBody = PhotoBody(status: Option<string>, photoUrl: Option<string>, message: Option<string>)

  /** How the HTTP call to the photo service ended, as the bot sees it. */
  datatype PhotoCall =
    | Responded(status: int, body: PhotoBody)
    | NetworkError
    | UnexpectedError

  datatype PhotoReply =
    | Prompted
    | InputRejected
    | PromptTooShort
    | PromptTooLong
    | MissingData
    | PhotoDelivered(image: seq<Base64.Byte>)
    | PhotoLinked(url: string)
    | NoResult
    | Problem(message: string)
    | ServiceDown
    | ConnectionFailed
    | InternalFailure
    | Cancelled

  datatype PhotoResult = PhotoResult(session: Session, reply: PhotoReply, called: bool)

  /** `callback_start_photo_processing`: no photo, no prompt, wait for a photo. */
  function Start(s: Session): (r: Session)
    ensures r.state == Some(PhotoWaitingForPhoto)
    ensures r.data.photoFileId == None && r.data.prompt == None
    ensures r.data.characteristics == s.data.characteristics
  {
    Session(Some(PhotoWaitingForPhoto), s.data.(photoFileId := None, prompt := None))
  }

  /** `process_photo` / `process_photo_error`. */
  function OnPhoto(s: Session, c: Content): (r: Session)
    requires s.state == Some(PhotoWaitingForPhoto)
    ensures c.Photo? ==> r == Session(Some(PhotoWaitingForPrompt), s.data.(photoFileId := Some(c.fileId)))
    ensures !c.Photo? ==> r == s
  {
    match c
    case Photo(fileId, _) => Session(Some(PhotoWaitingForPrompt), s.data.(photoFileId := Some(fileId)))
    case _ => s
  }

  /** The prompt checks of `process_prompt`, on the stripped text. */
  predicate PromptAccepted(prompt: string) {
    MinPromptLength <= |Strip(prompt)| <= MaxPromptLength
  }

  /** The payload the bot decodes from a `data:image...` URL: the second
      `,`-separated field, or the whole URL when it has no comma. */
  function DataUriPayload(url: string): (r: string)
    ensures ',' !in r
    ensures ',' !in url ==> r == url
  {
    if ',' in url then Split(url, ',')[1] else url
  }

  /** What the user is told once the photo service has been called. */
  function ReplyFor(call: PhotoCall): (r: PhotoReply)
    ensures r == ServiceDown <==> call.Responded? && call.status != 200
    ensures r == ConnectionFailed <==> call == NetworkError
    ensures r.Problem? <==> call.Responded? && call.status == 200 && call.body.status != Some("success")
    ensures r.Problem? ==> r.message == call.body.message.GetOr("Неизвестная ошибка")
    ensures r == NoResult <==>
      call.Responded? && call.status == 200 && call.body.status == Some("success")
      && call.body.photoUrl.GetOr("") == ""
    ensures r.PhotoLinked? <==>
      call.Responded? && call.status == 200 && call.body.status == Some("success")
      && call.body.photoUrl.GetOr("") != "" && !StartsWith(call.body.photoUrl.GetOr(""), "data:image")
    ensures r.PhotoLinked? ==> r.url == call.body.photoUrl.GetOr("")
    ensures r.PhotoDelivered? <==>
      && call.Responded? && call.status == 200 && call.body.status == Some("success")
      && StartsWith(call.body.photoUrl.GetOr(""), "data:image")
      && Base64.Decode(DataUriPayload(call.body.photoUrl.GetOr(""))).Some?
    ensures r.PhotoDelivered? ==>
      && call.Responded? && call.status == 200 && call.body.status == Some("success")
      && StartsWith(call.body.photoUrl.GetOr(""), "data:image")
      && Base64.Decode(DataUriPayload(call.body.photoUrl.GetOr(""))) == Some(r.image)
    ensures r == InternalFailure <==>
      || call == UnexpectedError
      || (&& call.Responded? && call.status == 200 && call.body.status == Some("success")
          && StartsWith(call.body.photoUrl.GetOr(""), "data:image")
          && Base64.Decode(DataUriPayload(call.body.photoUrl.GetOr(""))).None?)
  {
    match call
    case Responded(status, body) =>
      if status == 200 then
        if body.status == Some("success") then
          var url := body.photoUrl.GetOr("");
          if url != "" then
            if StartsWith(url, "data:image") then
              match Base64.Decode(DataUriPayload(url))
              case Some(image) => PhotoDelivered(image)
              case None => InternalFailure
            else PhotoLinked(url)
          else NoResult
        else Problem(body.message.GetOr("Неизвестная ошибка"))
      else ServiceDown
    case NetworkError => ConnectionFailed
    case UnexpectedError => InternalFailure
  }

  /** `process_photo_with_api`: a missing photo or prompt ends the flow
      without a call; otherwise the service is called. Every path clears. */
  function Process(s: Session, call: PhotoCall): (r: PhotoResult)
    ensures r.session == Cleared
    ensures r.called <==> Truthy(s.data.photoFileId) && Truthy(s.data.prompt)
    ensures !r.called ==> r.reply == MissingData
    ensures r.called ==> r.reply == ReplyFor(call)
  {
    if !Truthy(s.data.photoFileId) || !Truthy(s.data.prompt) then PhotoResult(Cleared, MissingData, false)
    else PhotoResult(Cleared, ReplyFor(call), true)
  }

  /** `process_prompt` / `process_prompt_error`. */
  function OnPrompt(s: Session, c: Content, call: PhotoCall): (r: PhotoResult)
    requires s.state == Some(PhotoWaitingForPrompt)
    ensures !c.Text? ==> r == PhotoResult(s, InputRejected, false)
    ensures c.Text? && !PromptAccepted(c.text) ==>
      && !r.called && r.session == s
      && (r.reply == PromptTooShort <==> |Strip(c.text)| < MinPromptLength)
      && (r.reply == PromptTooLong <==> |Strip(c.text)| > MaxPromptLength)
    ensures c.Text? && PromptAccepted(c.text) ==>
      && r.session == Cleared
      && (r.called <==> Truthy(s.data.photoFileId))
      && (r.called ==> r.reply == ReplyFor(call))
  {
    match c
    case Text(t) =>
      var prompt := Strip(t);
      if |prompt| < MinPromptLength then PhotoResult(s, PromptTooShort, false)
      else if |prompt| > MaxPromptLength then PhotoResult(s, PromptTooLong, false)
      else Process(s.(data := s.data.(prompt := Some(prompt))), call)
    case _ => PhotoResult(s, InputRejected, false)
  }

  /** A message in one of the photo states, routed to that state's handlers. */
  function HandleMessage(s: Session, c: Content, call: PhotoCall): (r: PhotoResult)
    requires s.state == Some(PhotoWaitingForPhoto) || s.state == Some(PhotoWaitingForPrompt)
    ensures Consistent(s) ==> Consistent(r.session)
    ensures s.state == Some(PhotoWaitingForPhoto) ==> !r.called
  {
    if s.state == Some(PhotoWaitingForPhoto) then
      PhotoResult(OnPhoto(s, c), if c.Photo? then Prompted else InputRejected, false)
    else OnPrompt(s, c, call)
  }

  /** A data URI built by the image client, read back by the bot, yields
      the base64 text it was built from when neither part has a comma. */
  lemma DataUriPayloadRoundTrip(mime: string, b64: string)
    requires ',' !in mime && ',' !in b64
    ensures DataUriPayload(ImageClient.ToDataUri(mime, b64)) == b64
  {
    ImageClient.DataUriFields(mime, b64);
    var uri := ImageClient.ToDataUri(mime, b64);
    assert uri[|uri| - |b64| - 1] == ',';
  }

  /** End to end: an image the client encodes into a `data:image/...` URI is
      delivered by the bot as exactly the same bytes. */
  lemma ImageDeliveredIntact(mime: string, image: seq<Base64.Byte>)
    requires ',' !in mime && StartsWith(mime, "image")
    ensures var url := ImageClient.ToDataUri(mime, ImageClient.EncodeImage(image));
      ReplyFor(Responded(200, PhotoBody(Some("success"), Some(url), None))) == PhotoDelivered(image)
  {
    var b64 := ImageClient.EncodeImage(image);
    var url := ImageClient.ToDataUri(mime, b64);
    Base64.EncodeHasNoComma(image);
    DataUriPayloadRoundTrip(mime, b64);
    Base64.DecodeEncode(image);
    assert StartsWith(url, "data:image") by {
      assert url[..10] == "data:" + mime[..5];
    }
  }
}

=== FILE: py_int.dfy ===
/** Python's `int(text)` on a string and `f"{n}"` on an integer, the two
    conversions the payment payloads and the service port go through. */
module PyInt {
  import opened Common
  import opened Strings

  predicate IsDigit(c: char) {
    '0' <= c <= '9'
  }

  function DigitChar(d: nat): (c: char)
    requires d < 10
    ensures IsDigit(c)
  {
    (('0' as int) + d) as char
  }

  function DigitValue(c: char): (d: nat)
    requires IsDigit(c)
    ensures d < 10
  {
    (c as int) - ('0' as int)
  }

  predicate NumeralChars(d: string) {
    forall i :: 0 <= i < |d| ==> IsDigit(d[i]) || d[i] == '_'
  }

  /** The unsigned body Python accepts: ASCII digits, with single
      underscores allowed only between two digits (`1_000`). */
  predicate IsNumeral(d: string) {
    && |d| > 0
    && NumeralChars(d)
    && IsDigit(d[0])
    && IsDigit(d[|d| - 1])
    && (forall i :: 0 <= i < |d| - 1 ==> !(d[i] == '_' && d[i + 1] == '_'))
  }

  /** Decimal value of a numeral, underscores ignored. */
  function NumeralValue(d: string): nat
    requires NumeralChars(d)
    decreases |d|
  {
    if |d| == 0 then 0
    else
      var last := d[|d| - 1];
      var init := NumeralValue(d[..|d| - 1]);
      if last == '_' then init else init * 10 + DigitValue(last)
  }

  /** Python's `int(s)`: surrounding whitespace stripped, one optional sign,
      then a numeral; `None` where Python raises `ValueError`. */
  function Parse(s: string): (r: Option<int>)
    ensures var t := Strip(s);
      r.Some? <==> IsNumeral(t) || (|t| > 0 && (t[0] == '+' || t[0] == '-') && IsNumeral(t[1..]))
    ensures r.Some? && r.value < 0 ==> Strip(s)[0] == '-'
  {
    var t := Strip(s);
    if |t| > 0 && (t[0] == '+' || t[0] == '-') then
      var body := t[1..];
      if IsNumeral(body) then
        var v: int := NumeralValue(body);
        Some(if t[0] == '-' then -v else v)
      else None
    else if IsNumeral(t) then Some(NumeralValue(t))
    else None
  }

  function ShowNat(n: nat): (r: string)
    ensures |r| > 0
    ensures forall i :: 0 <= i < |r| ==> IsDigit(r[i])
  {
    if n < 10 then [DigitChar(n)] else ShowNat(n / 10) + [DigitChar(n % 10)]
  }

  /** Python's `f"{n}"` / `str(n)` on an integer. */
  function Show(n: int): (r: string)
    ensures |r| > 0
    ensures forall i :: 0 <= i < |r| ==> IsDigit(r[i]) || (i == 0 && r[i] == '-')
  {
    if n < 0 then "-" + ShowNat(-n) else ShowNat(n)
  }

  lemma {:induction false} ShowNatValue(n: nat)
    ensures NumeralChars(ShowNat(n)) && NumeralValue(ShowNat(n)) == n
  {
    if n >= 10 {
      ShowNatValue(n / 10);
      var s := ShowNat(n);
      assert s[..|s| - 1] == ShowNat(n / 10);
    }
  }

  lemma ShowNatNumeral(n: nat)
    ensures IsNumeral(ShowNat(n)) && NumeralValue(ShowNat(n)) == n
  {
    ShowNatValue(n);
  }

  lemma ParseUnsigned(t: string)
    requires Strip(t) == t && IsNumeral(t)
    ensures Parse(t) == Some(NumeralValue(t))
  {
    assert IsDigit(t[0]);
  }

  lemma ParseNegative(t: string)
    requires Strip(t) == t && |t| > 1 && t[0] == '-' && IsNumeral(t[1..])
    ensures Parse(t) == Some(-(NumeralValue(t[1..]) as int))
  {
  }

  /** A written integer has no surrounding whitespace. */
  lemma ShowUnpadded(n: int)
    ensures Strip(Show(n)) == Show(n)
  {
    var s := Show(n);
    assert !IsSpace(s[0]) && !IsSpace(s[|s| - 1]);
    StripUnpadded(s);
  }

  /** Reading back what `Show` wrote gives the same integer. */
  lemma ParseShow(n: int)
    ensures Parse(Show(n)) == Some(n)
  {
    var s := Show(n);
    ShowUnpadded(n);
    if n < 0 {
      ShowNatNumeral(-n);
      assert s[1..] == ShowNat(-n);
      ParseNegative(s);
    } else {
      ShowNatNumeral(n);
      ParseUnsigned(s);
    }
  }

  /** Distinct integers are written differently. */
  lemma ShowInjective(m: int, n: int)
    requires Show(m) == Show(n)
    ensures m == n
  {
    ParseShow(m);
    ParseShow(n);
  }

  /** A written integer contains no field separator the payloads use. */
  lemma ShowHasNo(n: int, c: char)
    requires !IsDigit(c) && c != '-'
    ensures c !in Show(n)
  {
  }
}

=== FILE: strings.dfy ===
/** The handful of Python `str` operations the bot and the service rely on:
    `split`, `startswith`, `in`, `strip`, `lower` and `replace(pat, "")`,
    and the first field of `split(maxsplit=1)` that aiogram's command filter
    reads. */
module Strings {

  predicate StartsWith(s: string, prefix: string) {
    |prefix| <= |s| && s[..|prefix|] == prefix
  }

  /** `sub` occurs in `s` at position `i`. */
  ghost predicate OccursAt(s: string, sub: string, i: int) {
    0 <= i && i + |sub| <= |s| && s[i..i + |sub|] == sub
  }

  /** Python's `sub in s`, scanning left to right. */
  predicate Contains(s: string, sub: string)
    decreases |s|
  {
    StartsWith(s, sub) || (|s| > 0 && Contains(s[1..], sub))
  }

  lemma {:induction false} OccursImpliesContains(s: string, sub: string, i: int)
    requires OccursAt(s, sub, i)
    ensures Contains(s, sub)
    decreases i
  {
    if i > 0 {
      assert s[1..][i - 1..i - 1 + |sub|] == s[i..i + |sub|];
      OccursImpliesContains(s[1..], sub, i - 1);
    }
  }

  lemma {:induction false} ContainsImpliesOccurs(s: string, sub: string) returns (i: int)
    requires Contains(s, sub)
    ensures OccursAt(s, sub, i)
    decreases |s|
  {
    if StartsWith(s, sub) {
      i := 0;
    } else {
      var j := ContainsImpliesOccurs(s[1..], sub);
      assert s[j + 1..j + 1 + |sub|] == s[1..][j..j + |sub|];
      i := j + 1;
    }
  }

  /** The scanning test agrees with the positional definition of `in`. */
  lemma ContainsIffOccurs(s: string, sub: string)
    ensures Contains(s, sub) <==> exists i :: OccursAt(s, sub, i)
  {
    if Contains(s, sub) {
      var i := ContainsImpliesOccurs(s, sub);
    }
    if exists i :: OccursAt(s, sub, i) {
      var i :| OccursAt(s, sub, i);
      OccursImpliesContains(s, sub, i);
    }
  }

  /** Python's `s.split(sep)` for a one-character separator: the maximal
      separator-free fields, in order; always at least one field. */
  function Split(s: string, sep: char): (r: seq<string>)
    ensures |r| >= 1
    ensures |r| >= 2 <==> sep in s
    ensures forall i :: 0 <= i < |r| ==> sep !in r[i]
    decreases |s|
  {
    if |s| == 0 then [""]
    else
      var rest := Split(s[1..], sep);
      if s[0] == sep then [""] + rest
      else [[s[0]] + rest[0]] + rest[1..]
  }

  /** `sep.join(fields)`. */
  function Join(fields: seq<string>, sep: char): string
    requires |fields| >= 1
    decreases |fields|
  {
    if |fields| == 1 then fields[0] else fields[0] + [sep] + Join(fields[1..], sep)
  }

  /** Splitting loses nothing: joining the fields back gives the input. */
  lemma {:induction false} JoinSplit(s: string, sep: char)
    ensures Join(Split(s, sep), sep) == s
    decreases |s|
  {
    if |s| > 0 {
      JoinSplit(s[1..], sep);
      var rest := Split(s[1..], sep);
      if s[0] != sep && |rest| > 1 {
        assert rest == [rest[0]] + rest[1..];
        assert Join(rest, sep) == rest[0] + [sep] + Join(rest[1..], sep);
      }
    }
  }

  lemma {:induction false} SplitSeparatorFree(s: string, sep: char)
    requires sep !in s
    ensures Split(s, sep) == [s]
    decreases |s|
  {
    if |s| > 0 {
      SplitSeparatorFree(s[1..], sep);
      assert [s[0]] + s[1..] == s;
    }
  }

  lemma {:induction false} SplitFirstField(a: string, sep: char, b: string)
    requires sep !in a
    ensures Split(a + [sep] + b, sep) == [a] + Split(b, sep)
    decreases |a|
  {
    if |a| == 0 {
      assert a + [sep] + b == [sep] + b;
      assert ([sep] + b)[1..] == b;
    } else {
      var s := a + [sep] + b;
      assert s[1..] == a[1..] + [sep] + b;
      SplitFirstField(a[1..], sep, b);
      assert [a[0]] + a[1..] == a;
    }
  }

  /** Joining separator-free fields and splitting again gives the fields back. */
  lemma {:induction false} SplitJoin(fields: seq<string>, sep: char)
    requires |fields| >= 1
    requires forall i :: 0 <= i < |fields| ==> sep !in fields[i]
    ensures Split(Join(fields, sep), sep) == fields
    decreases |fields|
  {
    if |fields| == 1 {
      SplitSeparatorFree(fields[0], sep);
    } else {
      SplitJoin(fields[1..], sep);
      SplitFirstField(fields[0], sep, Join(fields[1..], sep));
      assert [fields[0]] + fields[1..] == fields;
    }
  }

  /** Python's `str.isspace()` for one character. */
  predicate IsSpace(c: char) {
    var n := c as int;
    (9 <= n <= 13) || (28 <= n <= 32) || n == 0x85 || n == 0xA0 || n == 0x1680
    || (0x2000 <= n <= 0x200A) || n == 0x2028 || n == 0x2029 || n == 0x202F
    || n == 0x205F || n == 0x3000
  }

  function TrimLeft(s: string): (r: string)
    ensures |r| <= |s| && r == s[|s| - |r|..]
    ensures forall i :: 0 <= i < |s| - |r| ==> IsSpace(s[i])
    ensures |r| > 0 ==> !IsSpace(r[0])
    decreases |s|
  {
    if |s| > 0 && IsSpace(s[0]) then TrimLeft(s[1..]) else s
  }

  function TrimRight(s: string): (r: string)
    ensures |r| <= |s| && r == s[..|r|]
    ensures forall i :: |r| <= i < |s| ==> IsSpace(s[i])
    ensures |r| > 0 ==> !IsSpace(r[|r| - 1])
    decreases |s|
  {
    if |s| > 0 && IsSpace(s[|s| - 1]) then TrimRight(s[..|s| - 1]) else s
  }

  /** The maximal run of non-whitespace characters at the front of `s`. */
  function TakeWord(s: string): (r: string)
    ensures StartsWith(s, r)
    ensures forall i :: 0 <= i < |r| ==> !IsSpace(r[i])
    ensures |r| < |s| ==> IsSpace(s[|r|])
    decreases |s|
  {
    if |s| == 0 || IsSpace(s[0]) then "" else [s[0]] + TakeWord(s[1..])
  }

  /** The first field of Python's `s.split(maxsplit=1)`: the first run of
      non-whitespace characters, or "" when `s` is all whitespace (where
      Python's split gives no fields at all). */
  function FirstWord(s: string): (r: string)
    ensures StartsWith(TrimLeft(s), r)
    ensures forall i :: 0 <= i < |r| ==> !IsSpace(r[i])
  {
    TakeWord(TrimLeft(s))
  }

  /** The first field of `s.split(maxsplit=1)` is `w`, for a `w` without
      whitespace: after the leading whitespace `s` starts with `w`, and `w`
      ends there or is followed by whitespace. */
  predicate FirstWordIs(s: string, w: string) {
    var t := TrimLeft(s);
    StartsWith(t, w) && (|t| == |w| || IsSpace(t[|w|]))
  }

  /** Two words that differ at a position both reach cannot both be the
      first word of a text. */
  lemma FirstWordsDiffer(s: string, v: string, w: string, k: nat)
    requires k < |v| && k < |w| && v[k] != w[k]
    ensures !(FirstWordIs(s, v) && FirstWordIs(s, w))
  {
  }

  /** The front word of `t` is `w` exactly when `t` starts with the
      whitespace-free `w` and nothing but whitespace or the end follows. */
  lemma {:induction false} TakeWordIs(t: string, w: string)
    requires forall i :: 0 <= i < |w| ==> !IsSpace(w[i])
    ensures TakeWord(t) == w <==> StartsWith(t, w) && (|t| == |w| || IsSpace(t[|w|]))
    decreases |w|
  {
    if |w| > 0 && |t| > 0 && !IsSpace(t[0]) {
      TakeWordIs(t[1..], w[1..]);
      assert t == [t[0]] + t[1..];
      assert w == [w[0]] + w[1..];
    }
  }

  /** `FirstWordIs` agrees with the first field `FirstWord` computes. */
  lemma FirstWordIsFirstWord(s: string, w: string)
    requires w != "" && forall i :: 0 <= i < |w| ==> !IsSpace(w[i])
    ensures FirstWordIs(s, w) <==> FirstWord(s) == w
  {
    TakeWordIs(TrimLeft(s), w);
  }

  /** Python's split finds no field exactly when the text is all whitespace. */
  lemma FirstWordEmpty(s: string)
    ensures FirstWord(s) == "" <==> forall i :: 0 <= i < |s| ==> IsSpace(s[i])
  {
  }

  /** Everything of `s` outside `s[i..j]` is whitespace. */
  predicate OnlySpaceOutside(s: string, i: int, j: int) {
    && 0 <= i <= j <= |s|
    && (forall k :: 0 <= k < i ==> IsSpace(s[k]))
    && (forall k :: j <= k < |s| ==> IsSpace(s[k]))
  }

  /** Python's `s.strip()`: drop leading and trailing whitespace. The result
      is a slice of `s` with only whitespace outside it and none at its ends. */
  function Strip(s: string): (r: string)
    ensures |r| <= |s|
    ensures |r| > 0 ==> !IsSpace(r[0]) && !IsSpace(r[|r| - 1])
    ensures exists i, j :: OnlySpaceOutside(s, i, j) && r == s[i..j]
  {
    TrimmedSlice(s, TrimLeft(s), TrimRight(TrimLeft(s)));
    TrimRight(TrimLeft(s))
  }

  /** `t` is `s` without its leading whitespace and `r` is `t` without its
      trailing whitespace, as `TrimLeft` and `TrimRight` promise. */
  ghost predicate Trimmed(s: string, t: string, r: string) {
    && |t| <= |s| && t == s[|s| - |t|..]
    && (forall k :: 0 <= k < |s| - |t| ==> IsSpace(s[k]))
    && (|t| > 0 ==> !IsSpace(t[0]))
    && |r| <= |t| && r == t[..|r|]
    && (forall k :: |r| <= k < |t| ==> IsSpace(t[k]))
    && (|r| > 0 ==> !IsSpace(r[|r| - 1]))
  }

  /** Where the strip sits in `s`: it starts after the leading whitespace. */
  lemma TrimmedSlice(s: string, t: string, r: string)
    requires Trimmed(s, t, r)
    ensures OnlySpaceOutside(s, |s| - |t|, |s| - |t| + |r|)
    ensures r == s[|s| - |t|..|s| - |t| + |r|]
    ensures |r| > 0 ==> !IsSpace(r[0]) && !IsSpace(r[|r| - 1])
  {
    var i := |s| - |t|;
    SliceCompose(s, t, r, i);
    forall k | i + |r| <= k < |s|
      ensures IsSpace(s[k])
    {
      assert s[k] == t[k - i];
    }
  }

  lemma SliceCompose(s: string, t: string, r: string, i: int)
    requires 0 <= i <= |s| && t == s[i..] && |r| <= |t| && r == t[..|r|]
    ensures r == s[i..i + |r|]
    ensures |r| > 0 ==> r[0] == t[0]
  { }

  /** Those properties pin the strip down: a slice of `s` with only
      whitespace outside it and none at its ends is `s.strip()`. */
  lemma StripIsTheTrimmedSlice(s: string, i: int, j: int)
    requires OnlySpaceOutside(s, i, j)
    requires i < j ==> !IsSpace(s[i]) && !IsSpace(s[j - 1])
    ensures Strip(s) == s[i..j]
  {
    TrimsToSlice(s, TrimLeft(s), TrimRight(TrimLeft(s)), i, j);
  }

  lemma TrimsToSlice(s: string, t: string, r: string, i: int, j: int)
    requires Trimmed(s, t, r)
    requires OnlySpaceOutside(s, i, j)
    requires i < j ==> !IsSpace(s[i]) && !IsSpace(s[j - 1])
    ensures r == s[i..j]
  {
    TrimmedSlice(s, t, r);
    TrimmedSliceUnique(s, i, j, |s| - |t|, r);
  }

  /** Two slices with only whitespace outside and none at their ends
      coincide. */
  lemma TrimmedSliceUnique(s: string, i: int, j: int, i0: int, r: string)
    requires OnlySpaceOutside(s, i, j)
    requires i < j ==> !IsSpace(s[i]) && !IsSpace(s[j - 1])
    requires OnlySpaceOutside(s, i0, i0 + |r|) && r == s[i0..i0 + |r|]
    requires |r| > 0 ==> !IsSpace(r[0]) && !IsSpace(r[|r| - 1])
    ensures r == s[i..j]
  {
    var j0 := i0 + |r|;
    if i < j && i0 < j0 {
      assert !IsSpace(s[i0]) && !IsSpace(s[j0 - 1]) by {
        assert r[0] == s[i0] && r[|r| - 1] == s[j0 - 1];
      }
      assert i == i0 && j == j0;
    } else if i < j {
      assert false;
    } else if i0 < j0 {
      assert false;
    }
  }

  /** A string with no whitespace at either end is its own strip. */
  lemma StripUnpadded(s: string)
    requires |s| > 0 ==> !IsSpace(s[0]) && !IsSpace(s[|s| - 1])
    ensures Strip(s) == s
  {
  }

  /** Stripping is idempotent. */
  lemma StripIdempotent(s: string)
    ensures Strip(Strip(s)) == Strip(s)
  {
    StripUnpadded(Strip(s));
  }

  function LowerChar(c: char): char {
    if 'A' <= c <= 'Z' then (c as int + 32) as char else c
  }

  /** Python's `s.lower()`, restricted to the ASCII letters. */
  function Lower(s: string): (r: string)
    ensures |r| == |s|
    ensures forall i :: 0 <= i < |r| ==> !('A' <= r[i] <= 'Z')
    ensures forall i :: 0 <= i < |s| && !('A' <= s[i] <= 'Z') ==> r[i] == s[i]
    ensures forall i :: 0 <= i < |s| && 'A' <= s[i] <= 'Z' ==> r[i] == (s[i] as int + 32) as char
  {
    seq(|s|, i requires 0 <= i < |s| => LowerChar(s[i]))
  }

  /** Lower-casing twice is lower-casing once. */
  lemma LowerIdempotent(s: string)
    ensures Lower(Lower(s)) == Lower(s)
  {
    assert forall i :: 0 <= i < |s| ==> Lower(Lower(s))[i] == Lower(s)[i];
  }

  /** Python's `s.replace(pat, "")`: delete the non-overlapping occurrences
      of `pat` found scanning left to right. */
  function RemoveAll(s: string, pat: string): (r: string)
    requires |pat| > 0
    ensures |r| <= |s|
    ensures !Contains(s, pat) ==> r == s
    ensures Contains(s, pat) ==> |r| <= |s| - |pat|
    decreases |s|
  {
    if |s| == 0 then s
    else if StartsWith(s, pat) then RemoveAll(s[|pat|..], pat)
    else [s[0]] + RemoveAll(s[1..], pat)
  }

  /** Occurrences in `s[1..]` are those in `s`, one position earlier. */
  lemma OccursShift(s: string, pat: string, k: int)
    requires 0 < k && |s| > 0
    ensures OccursAt(s, pat, k) <==> OccursAt(s[1..], pat, k - 1)
  {
    if k + |pat| <= |s| {
      assert s[1..][k - 1..k - 1 + |pat|] == s[k..k + |pat|];
    }
  }

  /** How `replace(pat, "")` proceeds: when `pat` occurs nowhere inside
      `pre` (it may still start right after it), everything in `pre` is
      kept, that occurrence goes, and the scan resumes after it. With
      `!Contains(s, pat) ==> RemoveAll(s, pat) == s` this determines the
      result. */
  lemma {:induction false} RemoveAllLeftmost(pre: string, pat: string, post: string)
    requires |pat| > 0
    requires forall k :: 0 <= k < |pre| ==> !OccursAt(pre + pat + post, pat, k)
    ensures RemoveAll(pre + pat + post, pat) == pre + RemoveAll(post, pat)
    decreases |pre|
  {
    var s := pre + pat + post;
    if |pre| == 0 {
      assert s == pat + post;
      assert StartsWith(s, pat) && s[|pat|..] == post;
    } else {
      PeelFirst(pre, pat, post);
      RemoveAllLeftmost(pre[1..], pat, post);
      RemoveAllKeepsFirst(s, pat);
      ConsTail(pre, RemoveAll(post, pat));
    }
  }

  /** A first character that does not start `pat` is kept in front. */
  lemma RemoveAllKeepsFirst(s: string, pat: string)
    requires |pat| > 0 && |s| > 0 && !StartsWith(s, pat)
    ensures RemoveAll(s, pat) == [s[0]] + RemoveAll(s[1..], pat)
  { }

  lemma ConsTail(p: string, x: string)
    requires |p| > 0
    ensures [p[0]] + (p[1..] + x) == p + x
  { }

  /** Dropping the first character of a non-empty `pre` keeps the
      hypothesis of `RemoveAllLeftmost`, and that character is kept. */
  lemma PeelFirst(pre: string, pat: string, post: string)
    requires |pat| > 0 && |pre| > 0
    requires forall k :: 0 <= k < |pre| ==> !OccursAt(pre + pat + post, pat, k)
    ensures (pre + pat + post)[1..] == pre[1..] + pat + post
    ensures !StartsWith(pre + pat + post, pat) && (pre + pat + post)[0] == pre[0]
    ensures forall k :: 0 <= k < |pre| - 1 ==> !OccursAt(pre[1..] + pat + post, pat, k)
  {
    var s := pre + pat + post;
    assert s[1..] == pre[1..] + pat + post;
    assert !OccursAt(s, pat, 0);
    forall k | 0 <= k < |pre| - 1
      ensures !OccursAt(pre[1..] + pat + post, pat, k)
    {
      assert !OccursAt(s, pat, k + 1);
      OccursShift(s, pat, k + 1);
    }
  }
}
